=== FILE: README.md ===
# QR code service — a Dafny model

The service is a small FastAPI application. It turns a URL into a PNG QR code, stores
the image in a storage directory, lists the stored codes and deletes them. The three
endpoints sit behind a bearer-token gate, and a `/token` endpoint issues tokens for
the one configured user.

A stored code has no database record. The file name is its identity: the URL is
cleaned (parsed and re-assembled), UTF-8 encoded and written in unpadded URL-safe
Base64 (section 5 of RFC 4648), and `.png` is appended. The listing reverses this:
it re-pads the name, decodes the Base64, decodes the UTF-8 and shows the URL again.

The model has these modules, each in its own file:

- `Wrappers`: option, result and outcome types, the octet type, the errors Python
  raises, and an HTTP exception value.
- `Config`: the configured constants the modelled code reads.
- `Base64Url`: URL-safe Base64. The encoder, the `=` padding and its removal, and the
  non-strict decoder of CPython's `binascii.a2b_base64`.
- `Utf8`: UTF-8 encoding and strict decoding (Table 3-7 of the Unicode Standard).
- `IdentityCodec`: URL cleaning, the URL-to-id encoding and its inverse.
- `ResourceLinks`: the navigation links attached to responses.
- `TokenService`: credential check, token issuance and the `/token` endpoint.
- `QrStorage`: the storage directory, the service's file operations, and a `Storage`
  class that performs them in place. `Storage.CreateQrImage` and
  `Storage.RemoveQrImage` do what the code does. `Storage.EstablishDirectoryIfMissing`
  performs the corrected `Mkdir` described under "Findings", not the code as written;
  the code as written is `MkdirAsWritten`.
- `QrRoutes`: the bearer gate and the create, list and delete endpoints. Each endpoint
  is a function from the directory and the request to the new directory and the reply.
  It is also a module-level method that takes a `Storage`, changes it in place, and is
  proved to agree with that function.

In these places the code behaves as follows, and the model follows it:

- Nothing verifies the bearer token. Any `Authorization` header of the form
  `Bearer …` passes the gate, and so does `Bearer` alone.
- An invalid URL makes `url_to_safe_string` raise `ValueError`, so the reply is a 500.
  The 400 branch at `app/routers/qr_code.py:22-26` can never run, because a successful
  encoding is never empty. `Generate` keeps that branch, and its contract shows the
  branch is never taken.
- A 409 carries both the view link and the delete link of the existing code.
- Images use the configured colours (`QR_CODE_COLOR`, `QR_BACKGROUND_HUE`). The colour
  fields of the request body are never read; the requested `dimensions` is the box size.
- A `.png` file in the storage directory whose name does not decode makes the whole
  listing fail with a 500.

## Model

| member | source | states |
|---|---|---|
| Base64Url.EncodeData | app/utils/common.py:43 | every character of the encoding is in the URL-safe alphabet |
| Base64Url.EncodeDataLength | app/utils/common.py:43 | each full group of three octets gives four characters, and a final group of one or two octets gives two or three |
| Base64Url.StripPadding | app/utils/common.py:43 | `rstrip('=')` returns a prefix that does not end in `=`, and only `=` characters were removed |
| Base64Url.StripEncodePadded | app/utils/common.py:43 | stripping removes exactly the padding the encoder added |
| Base64Url.EncodePadded | app/utils/common.py:43 | `urlsafe_b64encode` gives a multiple of four characters, each URL-safe or `=` |
| Base64Url.EncodedLengths | app/utils/common.py:43 | the encoder adds at most two pads; the unpadded length is never 1 modulo 4, and its residue matches the input length modulo 3 |
| Base64Url.Repad | app/utils/common.py:48-49 | appends one to four `=` so that the length is a multiple of four, four exactly when the length already is one, and keeps the id as a prefix |
| Base64Url.Scan | app/utils/common.py:50 | the only error the scanner raises is `binascii.Error` |
| Base64Url.DecodePadded | app/utils/common.py:50 | non-ASCII input raises `ValueError`, and nothing else does |
| Base64Url.ScanEncodeData | app/utils/common.py:43-50 | scanning an encoding followed by enough `=` yields exactly the encoded octets |
| Base64Url.DecodeRepadded | app/utils/common.py:43-50 | re-padding and decoding an unpadded encoding gives back the octets |
| Utf8.Encode | app/utils/common.py:43 | a string encodes to at least one byte per character |
| Utf8.Decode | app/utils/common.py:51 | a successful decode has at most one character per byte |
| Utf8.DecodeEncode | app/utils/common.py:43-51 | decoding the encoding of a string gives the string back |
| Utf8.EncodeDecode | app/utils/common.py:43-51 | a byte sequence that decodes is the encoding of what it decodes to |
| Utf8.DecodeIsInverse | app/utils/common.py:43-51 | `b` decodes to `s` if and only if `s` encodes to `b` |
| Utf8.EncodeInjective | app/utils/common.py:43 | distinct strings have distinct encodings |
| IdentityCodec.ConfirmAndCleanUrl | app/utils/common.py:32-38 | a URL is accepted if and only if its parse has a scheme and a network location; the result is the re-assembled parse |
| IdentityCodec.UrlToSafeString | app/utils/common.py:40-44 | fails with `ValueError` if and only if the URL is refused; otherwise the id is non-empty, URL-safe and not 1 modulo 4 in length |
| IdentityCodec.Base64ToUrl | app/utils/common.py:47-51 | fails only with a non-ASCII, Base64 or UTF-8 error |
| IdentityCodec.RoundTrip | app/utils/common.py:40-51 | the id of an accepted URL decodes to its cleaned URL |
| IdentityCodec.IdsAreInjective | app/utils/common.py:40-44 | accepted URLs with the same id have the same cleaned URL |
| IdentityCodec.IdsDependOnCleanUrl | app/utils/common.py:40-44 | URLs with the same cleaned URL have the same id |
| ResourceLinks.CraftResourceLinks | app/utils/common.py:53-70 | "create" gives a view link then a delete link, "delete" gives only the delete link, any other verb gives none |
| ResourceLinks.LinksAreViewThenDelete | app/utils/common.py:53-70 | every link is the view or the delete link, and each appears if and only if its verb condition holds |
| TokenService.VerifyCredentials | app/utils/common.py:20-24 | gives the identity if and only if both values equal the configured user and password |
| TokenService.EffectiveLifetime | app/utils/common.py:28 | a missing or zero delta gives fifteen minutes; any other delta is used as given |
| TokenService.IssueToken | app/utils/common.py:26-30 | the claims are the input's, with `exp` set to now plus the lifetime, signed with the configured key and algorithm |
| TokenService.GetAccessToken | app/routers/oauth.py:16-39 | 401 with the Bearer challenge if and only if the credentials are wrong; otherwise a bearer token with subject and expiry |
| TokenService.TokensOnlyForAdmin | app/routers/oauth.py:29-36 | a granted token names the configured user and expires 1800 seconds after issue |
| QrStorage.PathExists | app/routers/qr_code.py:33 | `exists()`: true if and only if the storage path is a directory and some entry has the name |
| QrStorage.PathIsFile | app/services/qr_service.py:58 | `is_file()`: implies the path exists; with distinct names, true if and only if the entry of that name is not a directory |
| QrStorage.PngNames | app/services/qr_service.py:20 | every listed name ends in `.png` |
| QrStorage.PngNamesMembers | app/services/qr_service.py:20 | a name is listed if and only if it is in the directory and ends in `.png` |
| QrStorage.PngNamesInOrder | app/services/qr_service.py:20 | the listing keeps the directory's order |
| QrStorage.PngNamesAppend | app/services/qr_service.py:20 | a new entry adds its name at the end of the listing when the name ends in `.png` |
| QrStorage.RetrieveQrFileNames | app/services/qr_service.py:8-26 | a missing path raises `FileNotFoundError`, a non-directory raises `NotADirectoryError`, and an unreadable directory raises `PermissionError`, each if and only if; otherwise gives the `.png` names |
| QrStorage.Saved | app/services/qr_service.py:28-49 | fails if and only if rendering or writing fails, the storage path is not a directory, or the name is a sub-directory; success leaves a directory |
| QrStorage.SavedWritesOneFile | app/services/qr_service.py:40-49 | after a save the name is a file holding the image, the names stay distinct, and the entries with any other name are exactly those before |
| QrStorage.Storage.CreateQrImage | app/services/qr_service.py:28-49 | writes in place exactly what `Saved` gives, or reports its error and leaves the directory unchanged |
| QrStorage.Without | app/services/qr_service.py:59 | keeps exactly the entries with another name |
| QrStorage.WithoutKeepsNamesDistinct | app/services/qr_service.py:59 | removing a name keeps the names distinct |
| QrStorage.WithoutRemovesOne | app/services/qr_service.py:59 | removing a present name deletes just its entry and keeps the others in order |
| QrStorage.FindIsUnique | app/services/qr_service.py:58 | with distinct names, the lookup finds the one entry holding the name |
| QrStorage.Removed | app/services/qr_service.py:51-63 | fails if and only if the path is not a file (`FileNotFoundError`) or the unlink is refused (`PermissionError`); success keeps the storage path |
| QrStorage.RemovedDeletesName | app/services/qr_service.py:58-63 | a removal leaves one entry fewer, the name no longer exists, the names stay distinct, and the remaining entries are exactly those with another name |
| QrStorage.Storage.RemoveQrImage | app/services/qr_service.py:51-63 | unlinks in place exactly what `Removed` gives, or reports its error (missing file or refused unlink) and leaves the directory unchanged |
| QrStorage.MkdirAsWritten | app/services/qr_service.py:65-82 | as written: fails only with `PermissionError` on a missing path that may not be created |
| QrStorage.MkdirAsWrittenLeavesNoDirectory | app/services/qr_service.py:74-76 | as written, the call returns normally when a file occupies the path, and every later listing then fails |
| QrStorage.Mkdir | app/services/qr_service.py:65-82 | corrected: success means a directory exists; an existing directory is kept unchanged; fails if and only if a file occupies the path or creation is denied |
| QrStorage.MkdirIdempotent | app/services/qr_service.py:74 | establishing the directory twice is the same as doing it once |
| QrStorage.Storage.EstablishDirectoryIfMissing | app/services/qr_service.py:65-82 | changes the directory in place exactly as `Mkdir` gives, or reports its error and leaves it unchanged |
| QrRoutes.Partition | app/routers/qr_code.py:14 | the scheme part has no space, and the header is the scheme alone or the scheme, one space and the rest |
| QrRoutes.Authenticate | app/routers/qr_code.py:14-17 | a missing or empty header raises 401 "Not authenticated", and every failure is that 401; with `BearerGate`, it fails exactly on headers that are not bearer headers |
| QrRoutes.BearerGate | app/routers/qr_code.py:14 | the gate passes if and only if the header starts with the `bearer` scheme in any case followed by a space or nothing, and it hands on the rest |
| QrRoutes.QrFileName | app/routers/qr_code.py:28 | the file name of an id ends in `.png`, and its stem is the id again |
| QrRoutes.DownloadUrl | app/routers/qr_code.py:30 | the download URL is the file-serving prefix followed by the file name |
| QrRoutes.Stem | app/routers/qr_code.py:54 | `qr[:-4]`: the name without its last four characters, or empty for a shorter name |
| QrRoutes.Generate | app/routers/qr_code.py:16-41 | answers only 201, 401, 409 or 500, and anything but 201 leaves the directory unchanged; a rejected header gives 401; a refused URL gives 500; a name that exists gives 409 with the create links; otherwise the write's failure gives 500, and its success gives 201 with the download URL and links |
| QrRoutes.GenerateQrCode | app/routers/qr_code.py:16-41 | changes the store in place and replies exactly as `Generate` gives |
| QrRoutes.ListView | app/routers/qr_code.py:52-56 | succeeds if and only if the stem decodes; the entry has the ready notice, the decoded URL, and no links |
| QrRoutes.Collect | app/routers/qr_code.py:51-57 | the values of all results in order; fails if and only if some result fails, and then with the error of the first failure |
| QrRoutes.ListViews | app/routers/qr_code.py:51-57 | one entry per name in order, and fails if and only if some name does not decode |
| QrRoutes.ShowAll | app/routers/qr_code.py:47-58 | answers only 200, 401 or 500; a rejected header gives 401; an authenticated request whose listing fails (missing, non-directory or unreadable path) gives 500 with the listing's error, and one with a `.png` name that does not decode gives 500 with the first decoding error; 200 if and only if authenticated, the storage path is a readable directory and every `.png` name decodes; the i-th entry of a 200 is the entry of the i-th listed name |
| QrRoutes.ShowAllQrCodes | app/routers/qr_code.py:47-58 | the listing built one name at a time replies exactly as `ShowAll` gives |
| QrRoutes.Delete | app/routers/qr_code.py:60-67 | answers only 204, 401, 404 or 500, and anything but 204 leaves the directory unchanged; a rejected header gives 401; 404 if and only if authenticated and the name is not a file; a stored file is removed with 204, or gives 500 when the unlink is refused |
| QrRoutes.RemoveQrCode | app/routers/qr_code.py:60-67 | changes the store in place and replies exactly as `Delete` gives |
| QrRoutes.RejectedHeaderChangesNothing | app/routers/qr_code.py:14-17 | for a missing header or any header that is not a bearer header, every endpoint answers 401 and the directory is unchanged |
| QrRoutes.CreatedAddsOneFile | app/routers/qr_code.py:28-41 | a 201 appends exactly one new entry, the requested image under the URL's id, and its links point at that file |
| QrRoutes.CreateTwiceConflicts | app/routers/qr_code.py:33-38 | creating the same URL again answers 409 with the same links and changes nothing |
| QrRoutes.DeleteUndoesCreate | app/routers/qr_code.py:60-67 | deleting the file a 201 created, with the unlink allowed, answers 204 and restores the directory to its state before the create |
| QrRoutes.DeleteTwiceNotFound | app/routers/qr_code.py:63-65 | a second delete of the same name answers 404 and changes nothing |
| QrRoutes.ListingShowsCreatedUrl | app/routers/qr_code.py:50-57 | after a 201 a readable listing contains the new file, and its entry shows the cleaned URL |

## Left out

- QR rendering by the `qrcode` library and the PNG bytes: a rendered image is its parameters (content, colours, box size), and a `rendered` flag says whether the library succeeded.
- JWT signing and serialisation: a token is its claims together with the key and algorithm. The code never verifies a token, so verification and expiry checks do not exist to model.
- `urllib.parse.urlparse` and `urlunparse`: they enter as a parameter, and every property holds for any such pair.
- The clock: `datetime.now` is a parameter, time is whole seconds, and sub-second `timedelta` values and time zones are not modelled.
- QrStorage.MkdirAsWritten, QrStorage.Mkdir: one `permitted` flag stands for every operating-system error of `mkdir` on a missing path, and each is reported as `PermissionError`; other `OSError` kinds (such as a read-only file system), which the handler re-raises unchanged, are not told apart.
- pydantic: request validation and its 422 replies, the normalisation of `HttpUrl`, the check that `dimensions` is positive, and the validation of responses. The unused request colours are fields of `QrRequest` only.
- QrRoutes.ShowAll: building `QRResponse(qr_link=...)` in the listing (`app/routers/qr_code.py:51-57`) validates the decoded text as an `HttpUrl`. A stored `.png` whose stem decodes to text that is not a URL (for example `aGVsbG8.png`, which decodes to "hello") makes the source answer 500, while the model lists it with 200.
- QrStorage.RetrieveQrFileNames: one `readable` flag stands for every operating-system error of `os.listdir` on an existing directory, and each is reported as `PermissionError`.
- Logging, reading configuration from the environment (the model uses the defaults), `app/main.py` startup, and static file serving of the images.
- QrStorage.Removed: a single `permitted` flag stands for every operating-system error of `unlink()`, and each is reported as `PermissionError`; other `OSError` kinds are not told apart.
- Concurrency: two requests racing between the existence check and the write, and partially written files.
- Listing order: `os.listdir` order is arbitrary; the model keeps the directory in creation order, with new files appended at the end.
- Path structure: names containing `/` or `..` that escape the storage directory, and the parent directories that `mkdir(parents=True)` creates.
- The unreachable statements at `app/routers/qr_code.py:44-45` after the `return`.
- QrRoutes.LowerAscii: lower-cases ASCII letters only. Python's `str.lower` also folds other letters, but none folds into a letter of "bearer".
- Utf8.Encode: a Dafny string cannot hold a lone surrogate, so the `UnicodeEncodeError` Python raises for one has no counterpart.
- The test in `tests/start_test.py` reads a `qr_code_url` key that the response does not have; tests are not part of this model.

## Findings

| source | as written | input that shows it | evidently intended | confidence | as-written member | corrected member |
|---|---|---|---|---|---|---|
| app/services/qr_service.py:74-76 | `FileExistsError` from `mkdir(exist_ok=True)` is caught and logged as "directory already exists" | a regular file at the storage path: the call returns normally, no directory exists, and every later listing and save fails | re-raise, so that returning normally means the storage directory exists | medium, not executed | QrStorage.MkdirAsWrittenLeavesNoDirectory | QrStorage.Mkdir |

=== FILE: base64url.dfy ===
/**
 * Base 64 with the URL- and filename-safe alphabet (RFC 4648 section 5), as Python's
 * `base64.urlsafe_b64encode` and `base64.urlsafe_b64decode` compute it.
 *
 * The encoder emits four characters per three input octets and completes a final
 * partial group with `=` padding (RFC 4648 section 3.2).  The decoder is the
 * non-strict scanner of CPython's `binascii.a2b_base64`: it skips characters outside
 * the alphabet, stops at the first complete padding sequence and rejects input that
 * ends in the middle of a group.
 */
module Base64Url {
  import opened Wrappers

  /** The characters of the URL-safe alphabet. */
  predicate IsSafeChar(c: char) {
    ('A' <= c <= 'Z') || ('a' <= c <= 'z') || ('0' <= c <= '9') || c == '-' || c == '_'
  }

  /** The character that encodes the 6-bit value `v` (Table 2 of RFC 4648). */
  function CharOf(v: int): (c: char)
    requires 0 <= v < 64
    ensures IsSafeChar(c)
  {
    if v < 26 then ('A' as int + v) as char
    else if v < 52 then ('a' as int + (v - 26)) as char
    else if v < 62 then ('0' as int + (v - 52)) as char
    else if v == 62 then '-'
    else '_'
  }

  /**
   * The 6-bit value of a character as the decoder reads it, or -1 for a character it
   * skips.  `urlsafe_b64decode` first translates `-` to `+` and `_` to `/` and then
   * uses the standard table, so both spellings of 62 and 63 are accepted.
   */
  function SextetOf(c: char): (v: int)
    ensures -1 <= v < 64
    ensures v >= 0 ==> c != '='
  {
    if 'A' <= c <= 'Z' then c as int - 'A' as int
    else if 'a' <= c <= 'z' then c as int - 'a' as int + 26
    else if '0' <= c <= '9' then c as int - '0' as int + 52
    else if c == '-' || c == '+' then 62
    else if c == '_' || c == '/' then 63
    else -1
  }

  lemma SextetOfCharOf(v: int)
    requires 0 <= v < 64
    ensures SextetOf(CharOf(v)) == v
  {
  }

  /** The four characters that encode three octets. */
  function Quad(x: Byte, y: Byte, z: Byte): (s: string)
    ensures |s| == 4 && forall i :: 0 <= i < 4 ==> IsSafeChar(s[i])
  {
    [CharOf(x / 4), CharOf((x % 4) * 16 + y / 16), CharOf((y % 16) * 4 + z / 64), CharOf(z % 64)]
  }

  /**
   * The data characters of the encoding of `b`: a final group of one or two octets
   * gives two or three characters, the padding is not included.
   */
  function EncodeData(b: seq<Byte>): (s: string)
    ensures forall i :: 0 <= i < |s| ==> IsSafeChar(s[i])
    decreases |b|
  {
    if |b| == 0 then ""
    else if |b| == 1 then [CharOf(b[0] / 4), CharOf((b[0] % 4) * 16)]
    else if |b| == 2 then [CharOf(b[0] / 4), CharOf((b[0] % 4) * 16 + b[1] / 16), CharOf((b[1] % 16) * 4)]
    else Quad(b[0], b[1], b[2]) + EncodeData(b[3..])
  }

  /** A run of `n` padding characters. */
  function Pads(n: nat): (s: string)
    ensures |s| == n && forall i :: 0 <= i < n ==> s[i] == '='
  {
    seq(n, _ => '=')
  }

  /** `base64.urlsafe_b64encode`: the data characters completed to a multiple of four with `=`. */
  function EncodePadded(b: seq<Byte>): (s: string)
    ensures |s| % 4 == 0
    ensures forall i :: 0 <= i < |s| ==> IsSafeChar(s[i]) || s[i] == '='
  {
    var data := EncodeData(b);
    var pads := if |b| % 3 == 0 then 0 else 3 - |b| % 3;
    EncodeDataLength(b);
    LengthArithmetic(|b|, |data|, pads);
    data + Pads(pads)
  }

  /** `str.rstrip('=')`: the longest prefix of `s` after which only padding follows. */
  function StripPadding(s: string): (r: string)
    ensures |r| <= |s| && r == s[..|r|]
    ensures |r| == 0 || r[|r| - 1] != '='
    ensures forall i :: |r| <= i < |s| ==> s[i] == '='
    decreases |s|
  {
    if |s| > 0 && s[|s| - 1] == '=' then StripPadding(s[..|s| - 1]) else s
  }

  /** The padding step of `base64_to_url`: `4 - len % 4` characters, four when the length is already a multiple of four. */
  function Repad(s: string): (r: string)
    ensures |r| % 4 == 0
    ensures 1 <= |r| - |s| <= 4
    ensures |s| % 4 == 0 <==> |r| - |s| == 4
    ensures r[..|s|] == s
    ensures forall i :: |s| <= i < |r| ==> r[i] == '='
  {
    s + Pads(4 - |s| % 4)
  }

  /** The state of `a2b_base64` between characters: position in the current group, the bits left over, the padding seen, the output. */
  datatype Scanner = Scanner(quadPos: int, left: int, pads: nat, out: seq<Byte>) {
    ghost predicate Valid() {
      && 0 <= quadPos < 4
      && 0 <= left
      && (quadPos == 1 ==> left < 64)
      && (quadPos == 2 ==> left < 16)
      && (quadPos == 3 ==> left < 4)
    }
  }

  /** The scanner after a data character of value `v`. */
  function Step(st: Scanner, v: int): (r: Scanner)
    requires st.Valid() && 0 <= v < 64
    ensures r.Valid() && r.pads == 0
  {
    if st.quadPos == 0 then Scanner(1, v, 0, st.out)
    else if st.quadPos == 1 then Scanner(2, v % 16, 0, st.out + [st.left * 4 + v / 16])
    else if st.quadPos == 2 then Scanner(3, v % 4, 0, st.out + [st.left * 16 + v / 4])
    else Scanner(0, 0, 0, st.out + [st.left * 64 + v])
  }

  /**
   * The non-strict `a2b_base64` loop over the remaining characters `s`.  A `=` counts
   * towards a padding sequence only after two data characters of a group; the
   * sequence that completes the group ends the scan.  At the end of the input the
   * scan fails unless it stands at a group boundary.
   */
  function Scan(s: string, st: Scanner): (r: Result<seq<Byte>, Error>)
    requires st.Valid()
    ensures r.Failure? ==> r.error == Base64Error
    decreases |s|
  {
    if |s| == 0 then
      if st.quadPos == 0 then Success(st.out) else Failure(Base64Error)
    else if s[0] == '=' then
      if st.quadPos >= 2 && st.quadPos + st.pads + 1 >= 4 then Success(st.out)
      else Scan(s[1..], if st.quadPos >= 2 then st.(pads := st.pads + 1) else st)
    else if SextetOf(s[0]) < 0 then Scan(s[1..], st)
    else Scan(s[1..], Step(st, SextetOf(s[0])))
  }

  predicate IsAscii(s: string) {
    forall i :: 0 <= i < |s| ==> s[i] as int < 128
  }

  /** `base64.urlsafe_b64decode` of a `str`: non-ASCII text is a ValueError, the rest is scanned. */
  function DecodePadded(s: string): (r: Result<seq<Byte>, Error>)
    ensures !IsAscii(s) <==> r == Failure(NonAscii)
  {
    if !IsAscii(s) then Failure(NonAscii) else Scan(s, Scanner(0, 0, 0, []))
  }

  // ---------------------------------------------------------------------------
  // Round trip

  /** A run of padding read at a group boundary changes nothing and ends the input cleanly. */
  lemma {:induction false} ScanPadding(tail: string, st: Scanner)
    requires st.Valid() && st.quadPos == 0
    requires forall i :: 0 <= i < |tail| ==> tail[i] == '='
    ensures Scan(tail, st) == Success(st.out)
    decreases |tail|
  {
    if |tail| > 0 {
      ScanPadding(tail[1..], st);
    }
  }

  /** The four sextets of three octets give the octets back. */
  lemma QuadSextets(x: Byte, y: Byte, z: Byte)
    ensures var c0, c1, c2, c3 := x / 4, (x % 4) * 16 + y / 16, (y % 16) * 4 + z / 64, z % 64;
      && 0 <= c0 < 64 && 0 <= c1 < 64 && 0 <= c2 < 64 && 0 <= c3 < 64
      && [c0 * 4 + c1 / 16, (c1 % 16) * 16 + c2 / 4, (c2 % 4) * 64 + c3] == [x, y, z]
  {
  }

  /** A data character is consumed by one step of the scanner. */
  lemma ScanDataChar(v: int, rest: string, st: Scanner)
    requires st.Valid() && 0 <= v < 64
    ensures Scan([CharOf(v)] + rest, st) == Scan(rest, Step(st, v))
  {
    SextetOfCharOf(v);
    assert ([CharOf(v)] + rest)[1..] == rest;
  }

  /** Four data steps from a group boundary emit three octets and come back to the boundary. */
  lemma StepQuad(st: Scanner, c0: int, c1: int, c2: int, c3: int)
    requires st.Valid() && st.quadPos == 0
    requires 0 <= c0 < 64 && 0 <= c1 < 64 && 0 <= c2 < 64 && 0 <= c3 < 64
    ensures Step(Step(Step(Step(st, c0), c1), c2), c3)
         == Scanner(0, 0, 0, st.out + [c0 * 4 + c1 / 16, (c1 % 16) * 16 + c2 / 4, (c2 % 4) * 64 + c3])
  {
  }

  /** Four data characters are consumed by four steps of the scanner. */
  lemma ScanFour(c0: int, c1: int, c2: int, c3: int, rest: string, st: Scanner)
    requires st.Valid() && 0 <= c0 < 64 && 0 <= c1 < 64 && 0 <= c2 < 64 && 0 <= c3 < 64
    ensures Scan([CharOf(c0), CharOf(c1), CharOf(c2), CharOf(c3)] + rest, st)
         == Scan(rest, Step(Step(Step(Step(st, c0), c1), c2), c3))
  {
    var st1 := Step(st, c0);
    var st2 := Step(st1, c1);
    var st3 := Step(st2, c2);
    var r3 := [CharOf(c3)] + rest;
    var r2 := [CharOf(c2)] + r3;
    var r1 := [CharOf(c1)] + r2;
    assert [CharOf(c0), CharOf(c1), CharOf(c2), CharOf(c3)] + rest == [CharOf(c0)] + r1;
    ScanDataChar(c0, r1, st);
    ScanDataChar(c1, r2, st1);
    ScanDataChar(c2, r3, st2);
    ScanDataChar(c3, rest, st3);
  }

  lemma ScanQuad(x: Byte, y: Byte, z: Byte, rest: string, st: Scanner)
    requires st.Valid() && st.quadPos == 0
    ensures Scan(Quad(x, y, z) + rest, st) == Scan(rest, Scanner(0, 0, 0, st.out + [x, y, z]))
  {
    var c0, c1, c2, c3 := x / 4, (x % 4) * 16 + y / 16, (y % 16) * 4 + z / 64, z % 64;
    QuadSextets(x, y, z);
    StepQuad(st, c0, c1, c2, c3);
    ScanFour(c0, c1, c2, c3, rest, st);
  }

  /** The sextets of a final single octet give it back. */
  lemma OneSextets(x: Byte)
    ensures var c0, c1 := x / 4, (x % 4) * 16;
      && 0 <= c0 < 64 && 0 <= c1 < 64
      && [c0 * 4 + c1 / 16] == [x]
  {
  }

  /** The sextets of a final pair of octets give them back. */
  lemma TwoSextets(x: Byte, y: Byte)
    ensures var c0, c1, c2 := x / 4, (x % 4) * 16 + y / 16, (y % 16) * 4;
      && 0 <= c0 < 64 && 0 <= c1 < 64 && 0 <= c2 < 64
      && [c0 * 4 + c1 / 16, (c1 % 16) * 16 + c2 / 4] == [x, y]
  {
  }

  /** Two data steps from a group boundary emit one octet. */
  lemma StepTwo(st: Scanner, c0: int, c1: int)
    requires st.Valid() && st.quadPos == 0 && 0 <= c0 < 64 && 0 <= c1 < 64
    ensures Step(Step(st, c0), c1) == Scanner(2, c1 % 16, 0, st.out + [c0 * 4 + c1 / 16])
  {
  }

  /** Three data steps from a group boundary emit two octets. */
  lemma StepThree(st: Scanner, c0: int, c1: int, c2: int)
    requires st.Valid() && st.quadPos == 0 && 0 <= c0 < 64 && 0 <= c1 < 64 && 0 <= c2 < 64
    ensures Step(Step(Step(st, c0), c1), c2)
         == Scanner(3, c2 % 4, 0, st.out + [c0 * 4 + c1 / 16, (c1 % 16) * 16 + c2 / 4])
  {
  }

  /** After two data characters of a group, two `=` end the scan successfully. */
  lemma ScanPadsAfterTwo(tail: string, st: Scanner)
    requires st.Valid() && st.quadPos == 2 && st.pads == 0
    requires |tail| >= 2 && tail[0] == '=' && tail[1] == '='
    ensures Scan(tail, st) == Success(st.out)
  {
    assert Scan(tail, st) == Scan(tail[1..], st.(pads := 1));
  }

  /** After three data characters of a group, one `=` ends the scan successfully. */
  lemma ScanPadAfterThree(tail: string, st: Scanner)
    requires st.Valid() && st.quadPos == 3 && st.pads == 0
    requires |tail| >= 1 && tail[0] == '='
    ensures Scan(tail, st) == Success(st.out)
  {
  }

  /** Two data characters and two `=` from a group boundary: one octet, and the scan ends. */
  lemma ScanTwoChars(c0: int, c1: int, tail: string, st: Scanner)
    requires st.Valid() && st.quadPos == 0 && 0 <= c0 < 64 && 0 <= c1 < 64
    requires |tail| >= 2 && tail[0] == '=' && tail[1] == '='
    ensures Scan([CharOf(c0), CharOf(c1)] + tail, st) == Success(st.out + [c0 * 4 + c1 / 16])
  {
    var r1 := [CharOf(c1)] + tail;
    ConsTwo(CharOf(c0), CharOf(c1), tail);
    ScanDataChar(c0, r1, st);
    ScanDataChar(c1, tail, Step(st, c0));
    StepTwo(st, c0, c1);
    ScanPadsAfterTwo(tail, Step(Step(st, c0), c1));
  }

  /** Three data characters and one `=` from a group boundary: two octets, and the scan ends. */
  lemma ScanThreeChars(c0: int, c1: int, c2: int, tail: string, st: Scanner)
    requires st.Valid() && st.quadPos == 0 && 0 <= c0 < 64 && 0 <= c1 < 64 && 0 <= c2 < 64
    requires |tail| >= 1 && tail[0] == '='
    ensures Scan([CharOf(c0), CharOf(c1), CharOf(c2)] + tail, st)
         == Success(st.out + [c0 * 4 + c1 / 16, (c1 % 16) * 16 + c2 / 4])
  {
    var r2 := [CharOf(c2)] + tail;
    var r1 := [CharOf(c1)] + r2;
    ConsThree(CharOf(c0), CharOf(c1), CharOf(c2), tail);
    ScanDataChar(c0, r1, st);
    ScanDataChar(c1, r2, Step(st, c0));
    ScanDataChar(c2, tail, Step(Step(st, c0), c1));
    StepThree(st, c0, c1, c2);
    ScanPadAfterThree(tail, Step(Step(Step(st, c0), c1), c2));
  }

  /** One octet: two data characters, then the two padding characters that end the scan. */
  lemma ScanOne(b: seq<Byte>, tail: string, st: Scanner)
    requires |b| == 1
    requires st.Valid() && st.quadPos == 0
    requires |tail| >= 2 && tail[0] == '=' && tail[1] == '='
    ensures Scan(EncodeData(b) + tail, st) == Success(st.out + b)
  {
    var x := b[0];
    var c0, c1 := x / 4, (x % 4) * 16;
    OneSextets(x);
    calc {
      Scan(EncodeData(b) + tail, st);
      { assert EncodeData(b) == [CharOf(c0), CharOf(c1)]; }
      Scan([CharOf(c0), CharOf(c1)] + tail, st);
      { ScanTwoChars(c0, c1, tail, st); }
      Success(st.out + [c0 * 4 + c1 / 16]);
      { assert [x] == b; }
      Success(st.out + b);
    }
  }

  /** Two octets: three data characters, then the padding character that ends the scan. */
  lemma ScanTwo(b: seq<Byte>, tail: string, st: Scanner)
    requires |b| == 2
    requires st.Valid() && st.quadPos == 0
    requires |tail| >= 1 && tail[0] == '='
    ensures Scan(EncodeData(b) + tail, st) == Success(st.out + b)
  {
    var x, y := b[0], b[1];
    var c0, c1, c2 := x / 4, (x % 4) * 16 + y / 16, (y % 16) * 4;
    TwoSextets(x, y);
    calc {
      Scan(EncodeData(b) + tail, st);
      { assert EncodeData(b) == [CharOf(c0), CharOf(c1), CharOf(c2)]; }
      Scan([CharOf(c0), CharOf(c1), CharOf(c2)] + tail, st);
      { ScanThreeChars(c0, c1, c2, tail, st); }
      Success(st.out + [c0 * 4 + c1 / 16, (c1 % 16) * 16 + c2 / 4]);
      { assert [x, y] == b; }
      Success(st.out + b);
    }
  }

  /** Scanning the data characters of `b` followed by enough padding appends exactly `b`. */
  lemma {:induction false} ScanEncodeData(b: seq<Byte>, tail: string, st: Scanner)
    requires st.Valid() && st.quadPos == 0
    requires forall i :: 0 <= i < |tail| ==> tail[i] == '='
    requires |b| % 3 == 1 ==> |tail| >= 2
    requires |b| % 3 == 2 ==> |tail| >= 1
    ensures Scan(EncodeData(b) + tail, st) == Success(st.out + b)
    decreases |b|
  {
    if |b| == 0 {
      assert EncodeData(b) + tail == tail;
      ScanPadding(tail, st);
      assert st.out + b == st.out;
    } else if |b| == 1 {
      ScanOne(b, tail, st);
    } else if |b| == 2 {
      ScanTwo(b, tail, st);
    } else {
      var x, y, z, rest := b[0], b[1], b[2], b[3..];
      var st' := Scanner(0, 0, 0, st.out + [x, y, z]);
      GroupRemainder(|b|);
      ScanEncodeData(rest, tail, st');
      ScanQuad(x, y, z, EncodeData(rest) + tail, st);
      SplitGroup(b, tail, st.out);
    }
  }

  /** The bookkeeping of a leading group: where its characters and its octets go. */
  lemma SplitGroup(b: seq<Byte>, tail: string, out: seq<Byte>)
    requires |b| >= 3
    ensures EncodeData(b) + tail == Quad(b[0], b[1], b[2]) + (EncodeData(b[3..]) + tail)
    ensures out + [b[0], b[1], b[2]] + b[3..] == out + b
  {
    EncodeDataGroup(b);
    AppendAssoc(Quad(b[0], b[1], b[2]), EncodeData(b[3..]), tail);
    AppendAssoc(out, [b[0], b[1], b[2]], b[3..]);
    HeadThree(b);
  }

  lemma AppendAssoc<T>(a: seq<T>, b: seq<T>, c: seq<T>)
    ensures a + b + c == a + (b + c)
  {
  }

  lemma HeadThree<T>(b: seq<T>)
    requires |b| >= 3
    ensures [b[0], b[1], b[2]] + b[3..] == b
  {
  }

  /** A short display ahead of a tail, one element at a time. */
  lemma ConsTwo<T>(a: T, b: T, t: seq<T>)
    ensures [a, b] + t == [a] + ([b] + t)
  {
  }

  lemma ConsThree<T>(a: T, b: T, c: T, t: seq<T>)
    ensures [a, b, c] + t == [a] + ([b] + ([c] + t))
  {
  }

  lemma GroupRemainder(n: int)
    requires n >= 3
    ensures (n - 3) % 3 == n % 3
  {
  }

  /** A full leading group contributes its four characters ahead of the rest. */
  lemma EncodeDataGroup(b: seq<Byte>)
    requires |b| >= 3
    ensures EncodeData(b) == Quad(b[0], b[1], b[2]) + EncodeData(b[3..])
  {
  }

  /** The data characters and `=` are ASCII, so the decoder never refuses them as text. */
  lemma EncodedIsAscii(s: string)
    requires forall i :: 0 <= i < |s| ==> IsSafeChar(s[i]) || s[i] == '='
    ensures IsAscii(s)
  {
  }

  /** Re-padding the data characters and decoding gives back the octets (the core of the round trip). */
  lemma DecodeRepadded(b: seq<Byte>)
    ensures DecodePadded(Repad(EncodeData(b))) == Success(b)
  {
    var data := EncodeData(b);
    var padded := Repad(data);
    assert padded == data + padded[|data|..];
    EncodedLengths(b);
    EncodedIsAscii(padded);
    ScanEncodeData(b, padded[|data|..], Scanner(0, 0, 0, []));
    assert [] + b == b;
    assert DecodePadded(padded) == Scan(data + padded[|data|..], Scanner(0, 0, 0, []));
  }

  /** Stripping a run of padding from text that does not itself end in `=` gives that text back. */
  lemma {:induction false} StripPads(data: string, n: nat)
    requires |data| == 0 || data[|data| - 1] != '='
    ensures StripPadding(data + Pads(n)) == data
    decreases n
  {
    if n > 0 {
      assert (data + Pads(n))[..|data| + n - 1] == data + Pads(n - 1);
      StripPads(data, n - 1);
    } else {
      assert data + Pads(n) == data;
    }
  }

  /** `rstrip('=')` removes exactly the padding that `urlsafe_b64encode` added. */
  lemma StripEncodePadded(b: seq<Byte>)
    ensures StripPadding(EncodePadded(b)) == EncodeData(b)
  {
    var data := EncodeData(b);
    assert |data| == 0 || IsSafeChar(data[|data| - 1]);
    StripPads(data, if |b| % 3 == 0 then 0 else 3 - |b| % 3);
  }

  /** Four characters per full group, two or three for a final partial group. */
  lemma {:induction false} EncodeDataLength(b: seq<Byte>)
    ensures |EncodeData(b)| == 4 * (|b| / 3) + (if |b| % 3 == 0 then 0 else |b| % 3 + 1)
    decreases |b|
  {
    if |b| >= 3 {
      EncodeDataGroup(b);
      EncodeDataLength(b[3..]);
      GroupRemainder(|b|);
      assert (|b| - 3) / 3 == |b| / 3 - 1;
    }
  }

  /** The padded encoding is a whole number of groups, and the stripped encoding never leaves a single dangling character. */
  lemma EncodedLengths(b: seq<Byte>)
    ensures |EncodePadded(b)| - |EncodeData(b)| <= 2
    ensures |EncodeData(b)| % 4 != 1
    ensures |b| > 0 ==> |EncodeData(b)| >= 2
    ensures |b| % 3 == 0 <==> |EncodeData(b)| % 4 == 0
    ensures |b| % 3 == 1 <==> |EncodeData(b)| % 4 == 2
    ensures |b| % 3 == 2 <==> |EncodeData(b)| % 4 == 3
  {
    EncodeDataLength(b);
    var n := |b|;
    var pads := if n % 3 == 0 then 0 else 3 - n % 3;
    assert |EncodePadded(b)| == |EncodeData(b)| + pads;
    LengthArithmetic(n, |EncodeData(b)|, pads);
  }

  /** The arithmetic behind `EncodedLengths`, on plain integers. */
  lemma LengthArithmetic(n: nat, dataLen: int, pads: int)
    requires dataLen == 4 * (n / 3) + (if n % 3 == 0 then 0 else n % 3 + 1)
    requires pads == if n % 3 == 0 then 0 else 3 - n % 3
    ensures (dataLen + pads) % 4 == 0 && pads <= 2
    ensures dataLen % 4 != 1
    ensures n > 0 ==> dataLen >= 2
    ensures n % 3 == 0 <==> dataLen % 4 == 0
    ensures n % 3 == 1 <==> dataLen % 4 == 2
    ensures n % 3 == 2 <==> dataLen % 4 == 3
  {
    var k, m := n / 3, n % 3;
    var d := if m == 0 then 0 else m + 1;
    ModFour(k, d);
    ModFour(k + (if m == 0 then 0 else 1), 0);
  }

  lemma ModFour(k: int, r: int)
    requires 0 <= r < 4
    ensures (4 * k + r) % 4 == r
  {
  }
}

=== FILE: config.dfy ===
/** The configuration defaults of `app/config.py` that the modelled code reads. */
module Config {
  /** QR_CODE_COLOR */
  const QrCodeColor := "crimson"
  /** QR_BACKGROUND_HUE */
  const QrBackgroundHue := "offwhite"
  /** SERVICE_ROOT_URL */
  const ServiceRootUrl := "http://127.0.0.1:80"
  /** FILE_SERVE_DIRECTORY */
  const FileServeDirectory := "file_downloads"
  /** SECRET_KEY */
  const SecretKey := "change-this-secret"
  /** ALGORITHM */
  const Algorithm := "HS256"
  /** TOKEN_LIFETIME_MINUTES */
  const TokenLifetimeMinutes := 30
  /** ADMIN_USER and ADMIN_PASSWORD */
  const AdminUser := "admin"
  const AdminPassword := "secret"
}

=== FILE: identity_codec.dfy ===
/**
 * The identity codec of `app/utils/common.py`: a URL is accepted when its parsed form
 * has a scheme and a network location, is canonicalised by re-assembling the parsed
 * form, and becomes a resource id by UTF-8 encoding and unpadded URL-safe Base64.
 * The id decodes back to the canonical URL.
 *
 * Python's `urllib.parse.urlparse` and `urlunparse` are library code outside this
 * model; they enter as a `UrlLib` value holding the two functions, and every property
 * here holds for any such pair.
 */
module IdentityCodec {
  import opened Wrappers
  import Base64Url
  import Utf8

  /** The six components `urlparse` returns. */
  datatype UrlParts = UrlParts(scheme: string, netloc: string, path: string, params: string, query: string, fragment: string)

  /** The parser and the re-assembler of `urllib.parse`. */
  datatype UrlLib = UrlLib(parse: string -> UrlParts, unparse: UrlParts -> string)

  /** `confirm_and_clean_url`: the re-assembled URL when the parse found a scheme and a network location, None otherwise. */
  function ConfirmAndCleanUrl(lib: UrlLib, provided: string): (r: Option<string>)
    ensures r.Some? <==> lib.parse(provided).scheme != "" && lib.parse(provided).netloc != ""
    ensures r.Some? ==> r.value == lib.unparse(lib.parse(provided))
  {
    var parsed := lib.parse(provided);
    if parsed.scheme != "" && parsed.netloc != "" then Some(lib.unparse(parsed)) else None
  }

  /** The URL that an accepted input stands for; the empty string is falsy in Python, so it is refused too. */
  predicate Accepted(lib: UrlLib, url: string) {
    var clean := ConfirmAndCleanUrl(lib, url);
    clean.Some? && clean.value != ""
  }

  /** `url_to_safe_string`: the unpadded URL-safe Base64 of the UTF-8 bytes of the cleaned URL; ValueError when the URL is refused. */
  function UrlToSafeString(lib: UrlLib, url: string): (r: Result<string, Error>)
    ensures r.Failure? <==> !Accepted(lib, url)
    ensures r.Failure? ==> r.error == InvalidUrl
    ensures r.Success? ==> r.value != []
    ensures r.Success? ==> forall i :: 0 <= i < |r.value| ==> Base64Url.IsSafeChar(r.value[i])
    ensures r.Success? ==> |r.value| % 4 != 1
  {
    var clean := ConfirmAndCleanUrl(lib, url);
    if clean.Some? && clean.value != "" then
      var bytes := Utf8.Encode(clean.value);
      Base64Url.StripEncodePadded(bytes);
      Base64Url.EncodedLengths(bytes);
      Success(Base64Url.StripPadding(Base64Url.EncodePadded(bytes)))
    else
      Failure(InvalidUrl)
  }

  /** `base64_to_url`: pad to a multiple of four, decode the Base64, decode the UTF-8. */
  function Base64ToUrl(safe: string): (r: Result<string, Error>)
    ensures r.Failure? ==> r.error in {NonAscii, Base64Error, Utf8Error}
  {
    match Base64Url.DecodePadded(Base64Url.Repad(safe))
    case Failure(e) => Failure(e)
    case Success(bytes) =>
      match Utf8.Decode(bytes)
      case None => Failure(Utf8Error)
      case Some(text) => Success(text)
  }

  /** The stored id of an accepted URL decodes to the cleaned URL. */
  lemma RoundTrip(lib: UrlLib, url: string)
    requires Accepted(lib, url)
    ensures UrlToSafeString(lib, url).Success?
    ensures Base64ToUrl(UrlToSafeString(lib, url).value) == Success(ConfirmAndCleanUrl(lib, url).value)
  {
    var clean := ConfirmAndCleanUrl(lib, url).value;
    var bytes := Utf8.Encode(clean);
    Base64Url.StripEncodePadded(bytes);
    Base64Url.DecodeRepadded(bytes);
    Utf8.DecodeEncode(clean);
  }

  /** Two accepted URLs get the same id only when they clean to the same URL: ids never collide. */
  lemma IdsAreInjective(lib: UrlLib, u: string, v: string)
    requires Accepted(lib, u) && Accepted(lib, v)
    requires UrlToSafeString(lib, u) == UrlToSafeString(lib, v)
    ensures ConfirmAndCleanUrl(lib, u) == ConfirmAndCleanUrl(lib, v)
  {
    RoundTrip(lib, u);
    RoundTrip(lib, v);
  }

  /** URLs that clean to the same URL get the same id (the id depends on nothing else). */
  lemma IdsDependOnCleanUrl(lib: UrlLib, u: string, v: string)
    requires ConfirmAndCleanUrl(lib, u) == ConfirmAndCleanUrl(lib, v)
    ensures UrlToSafeString(lib, u) == UrlToSafeString(lib, v)
  {
  }
}

=== FILE: qr_routes.dfy ===
/**
 * The three QR endpoints of `app/routers/qr_code.py` and the bearer gate in front of them.
 *
 * Each endpoint is a function from the storage directory and the request to the new
 * directory and the reply, and a method that takes a `QrStorage.Storage`, changes it
 * in place and is proved to agree with that function.
 * The gate is FastAPI's `OAuth2PasswordBearer`: it asks only for an `Authorization`
 * header with the `Bearer` scheme (section 2.1 of RFC 6750) and hands the rest of the
 * header to the endpoint, which never looks at it.
 */
module QrRoutes {
  import opened Wrappers
  import Config
  import opened IdentityCodec
  import opened ResourceLinks
  import opened QrStorage

  // ---------------------------------------------------------------------------
  // The bearer gate

  /** The 401 the gate raises, with the `Bearer` challenge. */
  const NotAuthenticated := HttpException(401, "Not authenticated", [("WWW-Authenticate", "Bearer")])

  /** `str.partition(" ")`, keeping the parts before and after the first space. */
  function Partition(h: string): (parts: (string, string))
    ensures ' ' !in parts.0
    ensures h == parts.0 + " " + parts.1 || (h == parts.0 && parts.1 == "")
    decreases |h|
  {
    if h == [] then ("", "")
    else if h[0] == ' ' then ("", h[1..])
    else
      var rest := Partition(h[1..]);
      ([h[0]] + rest.0, rest.1)
  }

  /**
   * Lower-casing of ASCII letters.  Python's `str.lower` also folds other letters, but
   * no non-ASCII character folds to a letter of "bearer", so the comparison below is
   * the same.
   */
  function LowerAscii(s: string): (r: string)
    ensures |r| == |s|
    ensures forall i :: 0 <= i < |s| ==> (r[i] == ' ' <==> s[i] == ' ')
  {
    seq(|s|, i requires 0 <= i < |s| => if 'A' <= s[i] <= 'Z' then (s[i] as int + 32) as char else s[i])
  }

  /** `OAuth2PasswordBearer.__call__`: the credentials after the scheme, or 401 when the header is missing, empty or not a bearer one. */
  function Authenticate(authorization: Option<string>): (r: Result<string, HttpException>)
    ensures r.Failure? ==> r.error == NotAuthenticated
    ensures authorization.None? || authorization == Some("") ==> r.Failure?
  {
    match authorization
    case None => Failure(NotAuthenticated)
    case Some(header) =>
      var parts := Partition(header);
      if header == "" || LowerAscii(parts.0) != "bearer" then Failure(NotAuthenticated) else Success(parts.1)
  }

  /** A header's scheme part is its first six characters, in any case, followed by a space or by nothing. */
  predicate IsBearerHeader(header: string) {
    |header| >= 6 && LowerAscii(header[..6]) == "bearer" && (|header| == 6 || header[6] == ' ')
  }

  /** What follows the scheme and its space. */
  function Credentials(header: string): string
    requires |header| >= 6
  {
    if |header| == 6 then "" else header[7..]
  }

  /** `Partition` splits at the first space it meets. */
  lemma {:induction false} PartitionAt(h: string, k: nat)
    requires k <= |h| && ' ' !in h[..k] && (k == |h| || h[k] == ' ')
    ensures Partition(h) == (h[..k], if k == |h| then "" else h[k + 1..])
    decreases k
  {
    if k > 0 {
      assert h[0] in h[..k];
      assert h[1..][..k - 1] == h[..k][1..];
      PartitionAt(h[1..], k - 1);
      assert [h[0]] + h[1..][..k - 1] == h[..k];
    }
  }

  /** The gate lets a request through exactly when its header is a bearer header, and passes on what follows the scheme. */
  lemma BearerGate(authorization: Option<string>)
    ensures Authenticate(authorization).Success? <==> authorization.Some? && IsBearerHeader(authorization.value)
    ensures Authenticate(authorization).Success? ==> Authenticate(authorization).value == Credentials(authorization.value)
  {
    if authorization.Some? {
      var h := authorization.value;
      var parts := Partition(h);
      if Authenticate(authorization).Success? {
        assert |parts.0| == 6;
        assert h[..6] == parts.0;
        if h != parts.0 {
          assert h[6] == ' ';
          assert parts.1 == h[7..];
        }
      }
      if IsBearerHeader(h) {
        assert ' ' !in h[..6] by {
          forall i | 0 <= i < 6
            ensures h[..6][i] != ' '
          {
            assert LowerAscii(h[..6])[i] == "bearer"[i];
          }
        }
        PartitionAt(h, 6);
      }
    }
  }

  // ---------------------------------------------------------------------------
  // Requests and replies

  /** `EncodeURLRequest`; pydantic has already checked the URL and that `dimensions` is positive. */
  datatype QrRequest = QrRequest(targetUrl: string, primaryColor: string, backgroundColor: string, dimensions: int)

  /** `QRCodeCreationResponse`. */
  datatype QrResponse = QrResponse(notice: string, qrLink: string, navigationLinks: seq<Link>)

  /** The body of a `POST /qr-codes/` reply: the created resource, or a `detail` message with links. */
  datatype CreateBody = Generated(response: QrResponse) | Detail(detail: string, links: seq<Link>)

  /** What an endpoint answers: a body with a status, an HTTPException, or an exception that escapes the handler (served as 500). */
  datatype Reply<T> = Answer(code: int, body: T) | Raised(exception: HttpException) | Crashed(error: Error)
  {
    function Status(): int {
      match this
      case Answer(code, _) => code
      case Raised(exception) => exception.status
      case Crashed(_) => 500
    }
  }

  /** The 404 of a delete whose name is not a stored file. */
  const QrNotFound := HttpException(404, "Can't locate QR code", [])

  /** The file name of a stored id: it ends in `.png`, and the listing's stem recovers the id. */
  function QrFileName(safe: string): (name: string)
    ensures EndsWithPng(name)
    ensures Stem(name) == safe
  {
    var name := safe + ".png";
    assert name[..|name| - 4] == safe;
    name
  }

  /** The public download URL of a stored file: the file-serving prefix, then the name. */
  function DownloadUrl(name: string): (url: string)
    ensures |url| > |name| && url[|url| - |name|..] == name
    ensures url[..|url| - |name|] == Config.ServiceRootUrl + "/" + Config.FileServeDirectory + "/"
  {
    var prefix := Config.ServiceRootUrl + "/" + Config.FileServeDirectory + "/";
    assert (prefix + name)[..|prefix|] == prefix;
    prefix + name
  }

  /** `qr[:-4]`: a name without its last four characters, or "" when it is shorter. */
  function Stem(name: string): (stem: string)
    ensures |stem| == if |name| >= 4 then |name| - 4 else 0
    ensures stem == name[..|stem|]
  {
    if |name| >= 4 then name[..|name| - 4] else ""
  }

  // ---------------------------------------------------------------------------
  // POST /qr-codes/

  /**
   * `generate_qr_code`: the gate, the id of the cleaned URL, a 409 when the file already
   * exists, otherwise the image written with the configured colours and the requested
   * dimensions and a 201.  Errors of the codec and of the write escape.
   */
  function Generate(d: Dir, lib: UrlLib, authorization: Option<string>, request: QrRequest, rendered: bool)
    : (result: (Dir, Reply<CreateBody>))
    ensures result.1.Status() in {201, 401, 409, 500}
    ensures result.1.Status() != 201 ==> result.0 == d
    ensures result.1.Status() == 201 <==> result.1.Answer? && result.1.body.Generated?
    ensures Authenticate(authorization).Failure? ==> result == (d, Raised(NotAuthenticated))
    ensures Authenticate(authorization).Success? && !Accepted(lib, request.targetUrl) ==> result == (d, Crashed(InvalidUrl))
    ensures Authenticate(authorization).Success? && Accepted(lib, request.targetUrl) ==>
      var name := QrFileName(UrlToSafeString(lib, request.targetUrl).value);
      var links := CraftResourceLinks("create", name, Config.ServiceRootUrl, DownloadUrl(name));
      && (PathExists(d, name) ==> result == (d, Answer(409, Detail("Duplicate QR code.", links))))
      && (!PathExists(d, name) ==>
            match Saved(d, name, QrImage(request.targetUrl, Config.QrCodeColor, Config.QrBackgroundHue, request.dimensions), rendered)
            case Success(d') => result == (d', Answer(201, Generated(QrResponse("Generated QR code.", DownloadUrl(name), links))))
            case Failure(e) => result == (d, Crashed(e)))
  {
    match Authenticate(authorization)
    case Failure(e) => (d, Raised(e))
    case Success(_) =>
      match UrlToSafeString(lib, request.targetUrl)
      case Failure(e) => (d, Crashed(e))
      case Success(safe) =>
        if safe == "" then (d, Answer(400, Detail("Invalid URL provided", [])))
        else
          var name := QrFileName(safe);
          var download := DownloadUrl(name);
          var links := CraftResourceLinks("create", name, Config.ServiceRootUrl, download);
          if PathExists(d, name) then (d, Answer(409, Detail("Duplicate QR code.", links)))
          else
            match Saved(d, name, QrImage(request.targetUrl, Config.QrCodeColor, Config.QrBackgroundHue, request.dimensions), rendered)
            case Failure(e) => (d, Crashed(e))
            case Success(d') => (d', Answer(201, Generated(QrResponse("Generated QR code.", download, links))))
  }

  /** The request handled by the service, with the store changed in place. */
  method GenerateQrCode(store: Storage, lib: UrlLib, authorization: Option<string>, request: QrRequest, rendered: bool)
    returns (reply: Reply<CreateBody>)
    requires store.Valid()
    modifies store
    ensures store.Valid()
    ensures (store.Contents(), reply) == Generate(old(store.Contents()), lib, authorization, request, rendered)
  {
    var gate := Authenticate(authorization);
    if gate.Failure? {
      return Raised(gate.error);
    }
    var safe := UrlToSafeString(lib, request.targetUrl);
    if safe.Failure? {
      return Crashed(safe.error);
    }
    if safe.value == "" {
      return Answer(400, Detail("Invalid URL provided", []));
    }
    var name := QrFileName(safe.value);
    var download := DownloadUrl(name);
    var links := CraftResourceLinks("create", name, Config.ServiceRootUrl, download);
    if PathExists(store.Contents(), name) {
      return Answer(409, Detail("Duplicate QR code.", links));
    }
    var written := store.CreateQrImage(request.targetUrl, name, Config.QrCodeColor, Config.QrBackgroundHue, request.dimensions, rendered);
    if written.Fail? {
      return Crashed(written.error);
    }
    reply := Answer(201, Generated(QrResponse("Generated QR code.", download, links)));
  }

  // ---------------------------------------------------------------------------
  // GET /qr-codes/

  /** The listing entry of one stored name: its stem decoded back to a URL, and no links, since "list" is not a verb that gets any. */
  function ListView(name: string): (r: Result<QrResponse, Error>)
    ensures r.Success? <==> Base64ToUrl(Stem(name)).Success?
    ensures r.Success? ==> r.value == QrResponse("QR code ready for use.", Base64ToUrl(Stem(name)).value, [])
    ensures r.Failure? ==> r.error == Base64ToUrl(Stem(name)).error
  {
    match Base64ToUrl(Stem(name))
    case Failure(e) => Failure(e)
    case Success(url) =>
      Success(QrResponse("QR code ready for use.", url, CraftResourceLinks("list", name, Config.ServiceRootUrl, DownloadUrl(name))))
  }

  /** The values of a sequence of results, in order, or the error of the first failure. */
  function Collect<T, E>(results: seq<Result<T, E>>): (r: Result<seq<T>, E>)
    ensures r.Success? ==> |r.value| == |results|
    ensures r.Success? ==> forall i :: 0 <= i < |results| ==> results[i] == Success(r.value[i])
    ensures r.Failure? <==> exists i :: 0 <= i < |results| && results[i].Failure?
    ensures r.Failure? ==>
      exists i :: 0 <= i < |results| && results[i] == Failure(r.error) && forall j :: 0 <= j < i ==> results[j].Success?
    decreases |results|
  {
    if results == [] then Success([])
    else
      match Collect(results[..|results| - 1])
      case Failure(e) => Failure(e)
      case Success(values) =>
        match results[|results| - 1]
        case Failure(e) => Failure(e)
        case Success(v) => Success(values + [v])
  }

  /** The listing entry of each name, in order. */
  function Views(names: seq<string>): (results: seq<Result<QrResponse, Error>>)
    ensures |results| == |names|
    ensures forall i :: 0 <= i < |names| ==> results[i] == ListView(names[i])
  {
    seq(|names|, i requires 0 <= i < |names| => ListView(names[i]))
  }

  /** The comprehension of `show_all_qr_codes`: one entry per name, in order, or the error of the first name that does not decode. */
  function ListViews(names: seq<string>): (r: Result<seq<QrResponse>, Error>)
    ensures r.Success? ==> |r.value| == |names|
    ensures r.Success? ==> forall i :: 0 <= i < |names| ==> ListView(names[i]) == Success(r.value[i])
    ensures r.Failure? <==> exists i :: 0 <= i < |names| && ListView(names[i]).Failure?
  {
    Collect(Views(names))
  }

  /**
   * `show_all_qr_codes`: the gate, the listing, and one entry per stored `.png` name;
   * listing and decoding errors escape.  `readable` says whether the system lets the
   * listing read the directory.
   */
  function ShowAll(d: Dir, authorization: Option<string>, readable: bool): (reply: Reply<seq<QrResponse>>)
    ensures reply.Status() in {200, 401, 500}
    ensures Authenticate(authorization).Failure? ==> reply == Raised(NotAuthenticated)
    ensures Authenticate(authorization).Success? && d.location == IsDirectory && !readable ==> reply == Crashed(PermissionDenied)
    ensures Authenticate(authorization).Success? && RetrieveQrFileNames(d, readable).Failure? ==>
      reply == Crashed(RetrieveQrFileNames(d, readable).error)
    ensures Authenticate(authorization).Success? && RetrieveQrFileNames(d, readable).Success? && ListViews(PngNames(d.entries)).Failure? ==>
      reply == Crashed(ListViews(PngNames(d.entries)).error)
    ensures reply.Answer? <==>
      && Authenticate(authorization).Success?
      && d.location == IsDirectory
      && readable
      && forall i :: 0 <= i < |PngNames(d.entries)| ==> ListView(PngNames(d.entries)[i]).Success?
    ensures reply.Answer? ==> reply.code == 200 && |reply.body| == |PngNames(d.entries)|
    ensures reply.Answer? ==> forall i :: 0 <= i < |reply.body| ==> ListView(PngNames(d.entries)[i]) == Success(reply.body[i])
  {
    match Authenticate(authorization)
    case Failure(e) => Raised(e)
    case Success(_) =>
      match RetrieveQrFileNames(d, readable)
      case Failure(e) => Crashed(e)
      case Success(names) =>
        match ListViews(names)
        case Failure(e) => Crashed(e)
        case Success(views) => Answer(200, views)
  }

  /** The listing built one name at a time, as the comprehension does. */
  method ShowAllQrCodes(store: Storage, authorization: Option<string>, readable: bool) returns (reply: Reply<seq<QrResponse>>)
    ensures reply == ShowAll(store.Contents(), authorization, readable)
  {
    var gate := Authenticate(authorization);
    if gate.Failure? {
      return Raised(gate.error);
    }
    var listing := RetrieveQrFileNames(store.Contents(), readable);
    if listing.Failure? {
      return Crashed(listing.error);
    }
    var names := listing.value;
    ghost var results := Views(names);
    var views: seq<QrResponse> := [];
    var k := 0;
    while k < |names|
      invariant 0 <= k <= |names|
      invariant Collect(results[..k]) == Success(views)
    {
      var view := ListView(names[k]);
      CollectStep(results, k, views);
      if view.Failure? {
        FailureExtends(results, k + 1);
        return Crashed(view.error);
      }
      views := views + [view.value];
      k := k + 1;
    }
    assert results[..k] == results;
    reply := Answer(200, views);
  }

  /** One more result extends the collected values, or fails with its error. */
  lemma CollectStep<T, E>(results: seq<Result<T, E>>, k: nat, values: seq<T>)
    requires k < |results| && Collect(results[..k]) == Success(values)
    ensures Collect(results[..k + 1]) == match results[k]
      case Success(v) => Success(values + [v])
      case Failure(e) => Failure(e)
  {
    assert results[..k + 1][..k] == results[..k];
  }

  /** Once a prefix of the results fails, the whole sequence fails with the same error. */
  lemma {:induction false} FailureExtends<T, E>(results: seq<Result<T, E>>, k: nat)
    requires k <= |results| && Collect(results[..k]).Failure?
    ensures Collect(results) == Collect(results[..k])
    decreases |results| - k
  {
    if k < |results| {
      assert results[..k + 1][..k] == results[..k];
      FailureExtends(results, k + 1);
    } else {
      assert results[..k] == results;
    }
  }

  // ---------------------------------------------------------------------------
  // DELETE /qr-codes/{name}

  /**
   * `remove_qr_code`: the gate, a 404 unless the name is a stored file, otherwise the
   * file removed and a 204; an unlink the system refuses escapes as a 500.
   */
  function Delete(d: Dir, authorization: Option<string>, name: string, permitted: bool): (result: (Dir, Reply<()>))
    ensures result.1.Status() in {204, 401, 404, 500}
    ensures result.1.Status() != 204 ==> result.0 == d
    ensures result.1.Status() == 404 <==> Authenticate(authorization).Success? && !PathIsFile(d, name)
    ensures Authenticate(authorization).Failure? ==> result == (d, Raised(NotAuthenticated))
    ensures Authenticate(authorization).Success? && !PathIsFile(d, name) ==> result == (d, Raised(QrNotFound))
    ensures Authenticate(authorization).Success? && PathIsFile(d, name) ==>
      result == if permitted then (Dir(d.location, Without(d.entries, name)), Answer(204, ())) else (d, Crashed(PermissionDenied))
  {
    match Authenticate(authorization)
    case Failure(e) => (d, Raised(e))
    case Success(_) =>
      if !PathIsFile(d, name) then (d, Raised(QrNotFound))
      else
        match Removed(d, name, permitted)
        case Failure(e) => (d, Crashed(e))
        case Success(d') => (d', Answer(204, ()))
  }

  /** The request handled by the service, with the store changed in place. */
  method RemoveQrCode(store: Storage, authorization: Option<string>, name: string, permitted: bool) returns (reply: Reply<()>)
    requires store.Valid()
    modifies store
    ensures store.Valid()
    ensures (store.Contents(), reply) == Delete(old(store.Contents()), authorization, name, permitted)
  {
    var gate := Authenticate(authorization);
    if gate.Failure? {
      return Raised(gate.error);
    }
    if !PathIsFile(store.Contents(), name) {
      return Raised(QrNotFound);
    }
    var removed := store.RemoveQrImage(name, permitted);
    if removed.Fail? {
      return Crashed(removed.error);
    }
    reply := Answer(204, ());
  }

  // ---------------------------------------------------------------------------
  // Properties of the service

  /** A request whose header is missing or is not a bearer header gets 401 from every endpoint, and the store is left as it was. */
  lemma RejectedHeaderChangesNothing(d: Dir, lib: UrlLib, authorization: Option<string>, request: QrRequest, rendered: bool,
                                     name: string, permitted: bool, readable: bool)
    requires authorization.None? || !IsBearerHeader(authorization.value)
    ensures Generate(d, lib, authorization, request, rendered) == (d, Raised(NotAuthenticated))
    ensures ShowAll(d, authorization, readable) == Raised(NotAuthenticated)
    ensures Delete(d, authorization, name, permitted) == (d, Raised(NotAuthenticated))
  {
    BearerGate(authorization);
  }

  /** A 201 adds exactly one entry, the image of the request under the id of its cleaned URL, and its links point at that file. */
  lemma CreatedAddsOneFile(d: Dir, lib: UrlLib, authorization: Option<string>, request: QrRequest, rendered: bool)
    requires Wellformed(d)
    requires Generate(d, lib, authorization, request, rendered).1.Status() == 201
    ensures Accepted(lib, request.targetUrl)
    ensures var name := QrFileName(UrlToSafeString(lib, request.targetUrl).value);
      var (d', reply) := Generate(d, lib, authorization, request, rendered);
      && !PathExists(d, name)
      && d'.entries == d.entries + [Entry(name, QrFile(QrImage(request.targetUrl, Config.QrCodeColor, Config.QrBackgroundHue, request.dimensions)))]
      && Wellformed(d')
      && reply.body.response.qrLink == DownloadUrl(name)
      && reply.body.response.navigationLinks == [ViewLink(DownloadUrl(name)), DeleteLink(Config.ServiceRootUrl, name)]
  {
    var name := QrFileName(UrlToSafeString(lib, request.targetUrl).value);
    var image := QrImage(request.targetUrl, Config.QrCodeColor, Config.QrBackgroundHue, request.dimensions);
    SavedWritesOneFile(d, name, image, rendered);
  }

  /** Creating the same URL again answers 409 with the same links and changes nothing. */
  lemma CreateTwiceConflicts(d: Dir, lib: UrlLib, authorization: Option<string>, request: QrRequest, rendered: bool, again: bool)
    requires Wellformed(d)
    requires Generate(d, lib, authorization, request, rendered).1.Status() == 201
    ensures var (d', reply) := Generate(d, lib, authorization, request, rendered);
      Generate(d', lib, authorization, request, again) == (d', Answer(409, Detail("Duplicate QR code.", reply.body.response.navigationLinks)))
  {
    var name := QrFileName(UrlToSafeString(lib, request.targetUrl).value);
    var image := QrImage(request.targetUrl, Config.QrCodeColor, Config.QrBackgroundHue, request.dimensions);
    SavedWritesOneFile(d, name, image, rendered);
  }

  /** Deleting the file a 201 created, where the system allows the unlink, answers 204 and gives back the store as it was before the create. */
  lemma DeleteUndoesCreate(d: Dir, lib: UrlLib, authorization: Option<string>, request: QrRequest, rendered: bool)
    requires Wellformed(d)
    requires Generate(d, lib, authorization, request, rendered).1.Status() == 201
    ensures var name := QrFileName(UrlToSafeString(lib, request.targetUrl).value);
      Delete(Generate(d, lib, authorization, request, rendered).0, authorization, name, true) == (d, Answer(204, ()))
  {
    var name := QrFileName(UrlToSafeString(lib, request.targetUrl).value);
    var image := QrImage(request.targetUrl, Config.QrCodeColor, Config.QrBackgroundHue, request.dimensions);
    var e := Entry(name, QrFile(image));
    CreatedAddsOneFile(d, lib, authorization, request, rendered);
    SavedWritesOneFile(d, name, image, rendered);
    WithoutLast(d.entries, e);
  }

  /** A second delete of the same name answers 404 and changes nothing. */
  lemma DeleteTwiceNotFound(d: Dir, authorization: Option<string>, name: string, permitted: bool, again: bool)
    requires Wellformed(d)
    requires Delete(d, authorization, name, permitted).1.Status() == 204
    ensures var d' := Delete(d, authorization, name, permitted).0;
      Delete(d', authorization, name, again) == (d', Raised(QrNotFound))
  {
    RemovedDeletesName(d, name, permitted);
  }

  /** After a 201, a readable listing names the new file, and a listing that succeeds shows the cleaned URL for it. */
  lemma ListingShowsCreatedUrl(d: Dir, lib: UrlLib, authorization: Option<string>, request: QrRequest, rendered: bool, readable: bool)
    requires Wellformed(d)
    requires Generate(d, lib, authorization, request, rendered).1.Status() == 201
    ensures var d' := Generate(d, lib, authorization, request, rendered).0;
      var name := QrFileName(UrlToSafeString(lib, request.targetUrl).value);
      && RetrieveQrFileNames(d', true).Success?
      && name in RetrieveQrFileNames(d', true).value
      && ListView(name) == Success(QrResponse("QR code ready for use.", ConfirmAndCleanUrl(lib, request.targetUrl).value, []))
      && (ShowAll(d', authorization, readable).Answer? ==> ListView(name).value in ShowAll(d', authorization, readable).body)
  {
    var safe := UrlToSafeString(lib, request.targetUrl).value;
    var name := QrFileName(safe);
    var image := QrImage(request.targetUrl, Config.QrCodeColor, Config.QrBackgroundHue, request.dimensions);
    var d' := Generate(d, lib, authorization, request, rendered).0;
    CreatedAddsOneFile(d, lib, authorization, request, rendered);
    assert name[|name| - 4..] == ".png";
    assert Stem(name) == safe;
    PngNamesAppend(d.entries, Entry(name, QrFile(image)));
    assert PngNames([Entry(name, QrFile(image))]) == [name];
    RoundTrip(lib, request.targetUrl);
    var names := RetrieveQrFileNames(d', true).value;
    assert names[|names| - 1] == name;
  }
}

=== FILE: qr_storage.dfy ===
/**
 * The QR storage directory and the file operations of `app/services/qr_service.py`.
 *
 * The directory is the service's only state.  `Dir` is its value: what stands at the
 * storage path and, when that is a directory, its entries in listing order.  The class
 * `Storage` holds that state and changes it in place the way the service's `save`,
 * `unlink` and `mkdir` calls do; each of its methods is proved against a function on
 * `Dir`, and the lemmas below are about those functions.
 */
module QrStorage {
  import opened Wrappers

  /** A rendered QR image: the text it encodes and the rendering parameters. */
  datatype QrImage = QrImage(content: string, fillColor: string, backColor: string, boxSize: int)

  /** What a directory entry is: a sub-directory, a file this service did not write, or a QR image. */
  datatype Kind = Directory | OtherFile | QrFile(image: QrImage)

  datatype Entry = Entry(name: string, kind: Kind)

  /** What stands at the storage path. */
  datatype Location = Missing | IsDirectory | OccupiedByFile

  datatype Dir = Dir(location: Location, entries: seq<Entry>)

  /** A directory never lists one name twice. */
  predicate NamesDistinct(entries: seq<Entry>) {
    forall i, j :: 0 <= i < j < |entries| ==> entries[i].name != entries[j].name
  }

  /** Only a directory has entries, and their names are distinct. */
  predicate Wellformed(d: Dir) {
    (d.location != IsDirectory ==> d.entries == []) && NamesDistinct(d.entries)
  }

  /** The position of the entry called `name`, or -1. */
  function Find(entries: seq<Entry>, name: string): (i: int)
    ensures -1 <= i < |entries|
    ensures i >= 0 ==> entries[i].name == name
    ensures i < 0 ==> forall j :: 0 <= j < |entries| ==> entries[j].name != name
    decreases |entries|
  {
    if |entries| == 0 then -1
    else if entries[0].name == name then 0
    else
      var k := Find(entries[1..], name);
      if k < 0 then -1 else k + 1
  }

  /** `Path.exists()` for `storage / name`: false when the storage path is not a directory. */
  predicate PathExists(d: Dir, name: string)
    ensures PathExists(d, name) <==> d.location == IsDirectory && exists i :: 0 <= i < |d.entries| && d.entries[i].name == name
  {
    d.location == IsDirectory && Find(d.entries, name) >= 0
  }

  /** `Path.is_file()` for `storage / name`. */
  predicate PathIsFile(d: Dir, name: string)
    ensures PathIsFile(d, name) ==> PathExists(d, name)
    ensures NamesDistinct(d.entries) ==>
      (PathIsFile(d, name) <==> d.location == IsDirectory && exists i :: 0 <= i < |d.entries| && d.entries[i].name == name && d.entries[i].kind != Directory)
  {
    var i := Find(d.entries, name);
    FindIsOnly(d.entries, name);
    d.location == IsDirectory && i >= 0 && d.entries[i].kind != Directory
  }

  /** `str.endswith('.png')`. */
  predicate EndsWithPng(name: string) {
    |name| >= 4 && name[|name| - 4..] == ".png"
  }

  /** The names of the entries, in listing order. */
  function Names(entries: seq<Entry>): (names: seq<string>)
    ensures |names| == |entries|
    ensures forall i :: 0 <= i < |entries| ==> names[i] == entries[i].name
  {
    seq(|entries|, i requires 0 <= i < |entries| => entries[i].name)
  }

  /** The comprehension of `retrieve_qr_file_names`: the listed names that end in `.png`, in listing order. */
  function PngNames(entries: seq<Entry>): (names: seq<string>)
    ensures forall n :: n in names ==> EndsWithPng(n)
    decreases |entries|
  {
    if |entries| == 0 then []
    else (if EndsWithPng(entries[0].name) then [entries[0].name] else []) + PngNames(entries[1..])
  }

  /**
   * `retrieve_qr_file_names`: `os.listdir` fails on a missing path, on a path that is
   * not a directory, and on a directory the system does not let it read (`readable`
   * false); each error is re-raised.
   */
  function RetrieveQrFileNames(d: Dir, readable: bool): (r: Result<seq<string>, Error>)
    ensures d.location == Missing <==> r == Failure(FileNotFound)
    ensures d.location == OccupiedByFile <==> r == Failure(NotADirectory)
    ensures d.location == IsDirectory && !readable <==> r == Failure(PermissionDenied)
    ensures r.Success? <==> d.location == IsDirectory && readable
    ensures r.Success? ==> r.value == PngNames(d.entries)
  {
    match d.location
    case Missing => Failure(FileNotFound)
    case OccupiedByFile => Failure(NotADirectory)
    case IsDirectory => if readable then Success(PngNames(d.entries)) else Failure(PermissionDenied)
  }

  /**
   * `create_qr_image` writing to `storage / name`: a missing or non-directory storage
   * path and a sub-directory of that name are re-raised; otherwise the image is written,
   * replacing a file of that name or adding a new entry.  `rendered` false stands for
   * every other failure the handler re-raises: of the rendering library, and of `save()`
   * itself, such as a directory the system does not let it write.
   */
  function Saved(d: Dir, name: string, image: QrImage, rendered: bool): (r: Result<Dir, Error>)
    ensures r.Failure? <==> !rendered || d.location != IsDirectory || (PathExists(d, name) && !PathIsFile(d, name))
    ensures r.Failure? && rendered ==> r.error in {FileNotFound, NotADirectory, IsADirectory}
    ensures r.Success? ==> r.value.location == IsDirectory
  {
    if !rendered then Failure(RenderFailed)
    else if d.location == Missing then Failure(FileNotFound)
    else if d.location == OccupiedByFile then Failure(NotADirectory)
    else
      var i := Find(d.entries, name);
      if i < 0 then
        assert !PathExists(d, name);
        Success(Dir(IsDirectory, d.entries + [Entry(name, QrFile(image))]))
      else if d.entries[i].kind == Directory then Failure(IsADirectory)
      else Success(Dir(IsDirectory, d.entries[i := Entry(name, QrFile(image))]))
  }

  /** The entries without the one called `name`, in listing order. */
  function Without(entries: seq<Entry>, name: string): (r: seq<Entry>)
    ensures |r| <= |entries|
    ensures forall e :: e in r <==> e in entries && e.name != name
    decreases |entries|
  {
    if |entries| == 0 then []
    else (if entries[0].name == name then [] else [entries[0]]) + Without(entries[1..], name)
  }

  /**
   * `remove_qr_image` of `storage / name`: FileNotFoundError unless it is a file,
   * otherwise it is unlinked; `permitted` says whether the operating system allows the
   * unlink, and PermissionError escapes when it does not.
   */
  function Removed(d: Dir, name: string, permitted: bool): (r: Result<Dir, Error>)
    ensures r.Failure? <==> !PathIsFile(d, name) || !permitted
    ensures !PathIsFile(d, name) ==> r == Failure(FileNotFound)
    ensures PathIsFile(d, name) && !permitted ==> r == Failure(PermissionDenied)
    ensures r.Success? ==> r.value.location == d.location
  {
    if !PathIsFile(d, name) then Failure(FileNotFound)
    else if !permitted then Failure(PermissionDenied)
    else Success(Dir(d.location, Without(d.entries, name)))
  }

  /**
   * `establish_directory_if_missing` as the source has it: `mkdir(parents=True,
   * exist_ok=True)` creates a missing directory (or raises PermissionError) and does
   * nothing to an existing one; when a file occupies the path it raises
   * FileExistsError, which the handler catches and logs as "already exists".
   */
  function MkdirAsWritten(d: Dir, permitted: bool): (r: Result<Dir, Error>)
    ensures r.Failure? <==> d.location == Missing && !permitted
    ensures r.Failure? ==> r.error == PermissionDenied
  {
    match d.location
    case IsDirectory => Success(d)
    case Missing => if permitted then Success(Dir(IsDirectory, [])) else Failure(PermissionDenied)
    case OccupiedByFile => Success(d)
  }

  /** The same operation with FileExistsError re-raised, so that success means the directory exists. */
  function Mkdir(d: Dir, permitted: bool): (r: Result<Dir, Error>)
    ensures r.Success? ==> r.value.location == IsDirectory
    ensures r.Failure? <==> d.location == OccupiedByFile || (d.location == Missing && !permitted)
    ensures d.location == IsDirectory ==> r == Success(d)
  {
    match d.location
    case IsDirectory => Success(d)
    case Missing => if permitted then Success(Dir(IsDirectory, [])) else Failure(PermissionDenied)
    case OccupiedByFile => Failure(FileExists)
  }

  /** The storage directory, changed in place by the service's file operations. */
  class Storage {
    var location: Location
    var entries: seq<Entry>

    ghost predicate Valid()
      reads this
    {
      Wellformed(Dir(location, entries))
    }

    function Contents(): Dir
      reads this
    {
      Dir(location, entries)
    }

    constructor (d: Dir)
      requires Wellformed(d)
      ensures Valid() && Contents() == d
    {
      location := d.location;
      entries := d.entries;
    }

    /** `create_qr_image(content, storage / name, qr_color, background, module_size)`; `rendered` says whether the rendering library succeeds. */
    method CreateQrImage(content: string, name: string, qrColor: string, background: string, moduleSize: int, rendered: bool)
      returns (o: Outcome<Error>)
      requires Valid()
      modifies this
      ensures Valid()
      ensures match Saved(old(Contents()), name, QrImage(content, qrColor, background, moduleSize), rendered)
        case Success(d) => o == Pass && Contents() == d
        case Failure(e) => o == Fail(e) && Contents() == old(Contents())
    {
      var image := QrImage(content, qrColor, background, moduleSize);
      if !rendered {
        return Fail(RenderFailed);
      }
      if location == Missing {
        return Fail(FileNotFound);
      } else if location == OccupiedByFile {
        return Fail(NotADirectory);
      }
      var i := Find(entries, name);
      if i < 0 {
        entries := entries + [Entry(name, QrFile(image))];
      } else if entries[i].kind == Directory {
        return Fail(IsADirectory);
      } else {
        entries := entries[i := Entry(name, QrFile(image))];
      }
      o := Pass;
    }

    /** `remove_qr_image(storage / name)`; `permitted` says whether the unlink is allowed. */
    method RemoveQrImage(name: string, permitted: bool) returns (o: Outcome<Error>)
      requires Valid()
      modifies this
      ensures Valid()
      ensures match Removed(old(Contents()), name, permitted)
        case Success(d) => o == Pass && Contents() == d
        case Failure(e) => o == Fail(e) && Contents() == old(Contents())
    {
      if !PathIsFile(Contents(), name) {
        o := Fail(FileNotFound);
      } else if !permitted {
        o := Fail(PermissionDenied);
      } else {
        WithoutKeepsNamesDistinct(entries, name);
        entries := Without(entries, name);
        o := Pass;
      }
    }

    /** `establish_directory_if_missing(storage)`, with the correction described at `Mkdir`. */
    method EstablishDirectoryIfMissing(permitted: bool) returns (o: Outcome<Error>)
      requires Valid()
      modifies this
      ensures Valid()
      ensures match Mkdir(old(Contents()), permitted)
        case Success(d) => o == Pass && Contents() == d
        case Failure(e) => o == Fail(e) && Contents() == old(Contents())
    {
      if location == Missing {
        if permitted {
          location, entries := IsDirectory, [];
          o := Pass;
        } else {
          o := Fail(PermissionDenied);
        }
      } else if location == OccupiedByFile {
        o := Fail(FileExists);
      } else {
        o := Pass;
      }
    }
  }

  // ---------------------------------------------------------------------------
  // Lemmas

  /** Removing a name keeps the remaining names distinct. */
  lemma {:induction false} WithoutKeepsNamesDistinct(entries: seq<Entry>, name: string)
    requires NamesDistinct(entries)
    ensures NamesDistinct(Without(entries, name))
    decreases |entries|
  {
    if |entries| > 0 {
      var rest := Without(entries[1..], name);
      WithoutKeepsNamesDistinct(entries[1..], name);
      if entries[0].name != name {
        forall j | 0 <= j < |rest|
          ensures rest[j].name != entries[0].name
        {
          assert rest[j] in entries[1..];
        }
        assert Without(entries, name) == [entries[0]] + rest;
      } else {
        assert Without(entries, name) == rest;
      }
    }
  }

  /** Removing a name that is not listed changes nothing. */
  lemma {:induction false} WithoutAbsent(entries: seq<Entry>, name: string)
    requires forall j :: 0 <= j < |entries| ==> entries[j].name != name
    ensures Without(entries, name) == entries
    decreases |entries|
  {
    if |entries| > 0 {
      WithoutAbsent(entries[1..], name);
      assert [entries[0]] + entries[1..] == entries;
    }
  }

  /** Removing the name of the last entry, when no other entry has it, gives back the entries before it. */
  lemma {:induction false} WithoutLast(entries: seq<Entry>, e: Entry)
    requires forall j :: 0 <= j < |entries| ==> entries[j].name != e.name
    ensures Without(entries + [e], e.name) == entries
    decreases |entries|
  {
    if |entries| == 0 {
      assert entries + [e] == [e];
    } else {
      assert (entries + [e])[1..] == entries[1..] + [e];
      WithoutLast(entries[1..], e);
      assert [entries[0]] + entries[1..] == entries;
    }
  }

  /** Removing a name from a concatenation removes it from each part. */
  lemma {:induction false} WithoutConcat(xs: seq<Entry>, ys: seq<Entry>, name: string)
    ensures Without(xs + ys, name) == Without(xs, name) + Without(ys, name)
    decreases |xs|
  {
    if |xs| > 0 {
      assert (xs + ys)[0] == xs[0];
      assert (xs + ys)[1..] == xs[1..] + ys;
      WithoutConcat(xs[1..], ys, name);
    } else {
      assert xs + ys == ys;
    }
  }

  /** Removing the name of the one entry between two runs that do not have it leaves the two runs. */
  lemma WithoutAround(before: seq<Entry>, x: Entry, after: seq<Entry>)
    requires forall j :: 0 <= j < |before| ==> before[j].name != x.name
    requires forall j :: 0 <= j < |after| ==> after[j].name != x.name
    ensures Without(before + [x] + after, x.name) == before + after
  {
    var name := x.name;
    WithoutAbsent(before, name);
    WithoutAbsent(after, name);
    assert Without([x], name) == [];
    calc {
      Without(before + [x] + after, name);
      { WithoutConcat(before + [x], after, name); }
      Without(before + [x], name) + Without(after, name);
      { WithoutConcat(before, [x], name); }
      (Without(before, name) + Without([x], name)) + Without(after, name);
      (before + []) + after;
      { assert before + [] == before; }
      before + after;
    }
  }

  /** With distinct names, no entry before or after position `i` has the name at `i`. */
  lemma OthersNamedDifferently(entries: seq<Entry>, i: int, before: seq<Entry>, after: seq<Entry>)
    requires NamesDistinct(entries) && 0 <= i < |entries|
    requires before == entries[..i] && after == entries[i + 1..]
    ensures forall j :: 0 <= j < |before| ==> before[j].name != entries[i].name
    ensures forall j :: 0 <= j < |after| ==> after[j].name != entries[i].name
  {
    forall j | 0 <= j < |after|
      ensures after[j].name != entries[i].name
    {
      assert after[j] == entries[i + 1 + j];
    }
  }

  /** A successful removal takes out exactly one entry, the one called `name`, and keeps the others in order. */
  lemma WithoutRemovesOne(entries: seq<Entry>, name: string)
    requires NamesDistinct(entries) && Find(entries, name) >= 0
    ensures Without(entries, name) == entries[..Find(entries, name)] + entries[Find(entries, name) + 1..]
  {
    var i := Find(entries, name);
    OthersNamedDifferently(entries, i, entries[..i], entries[i + 1..]);
    assert entries == entries[..i] + [entries[i]] + entries[i + 1..];
    WithoutAround(entries[..i], entries[i], entries[i + 1..]);
  }

  /** The listing filter keeps a name exactly when it is listed and ends in `.png`. */
  lemma {:induction false} PngNamesMembers(entries: seq<Entry>, n: string)
    ensures n in PngNames(entries) <==> n in Names(entries) && EndsWithPng(n)
    decreases |entries|
  {
    if |entries| > 0 {
      PngNamesMembers(entries[1..], n);
      assert Names(entries) == [entries[0].name] + Names(entries[1..]);
    }
  }

  /** `xs` occurs in `ys` in order, possibly with gaps. */
  predicate IsSubsequence(xs: seq<string>, ys: seq<string>)
    decreases |ys|
  {
    if xs == [] then true
    else if ys == [] then false
    else if xs[0] == ys[0] then IsSubsequence(xs[1..], ys[1..])
    else IsSubsequence(xs, ys[1..])
  }

  /** The listing filter keeps the listing order: its result is a subsequence of the listed names. */
  lemma {:induction false} PngNamesInOrder(entries: seq<Entry>)
    ensures IsSubsequence(PngNames(entries), Names(entries))
    decreases |entries|
  {
    if |entries| > 0 {
      PngNamesInOrder(entries[1..]);
      var names := Names(entries);
      assert names[1..] == Names(entries[1..]);
      var tail := PngNames(entries[1..]);
      if EndsWithPng(entries[0].name) {
        assert PngNames(entries) == [entries[0].name] + tail;
        assert ([entries[0].name] + tail)[1..] == tail;
      } else {
        assert PngNames(entries) == tail;
        SubsequenceSkip(tail, names);
      }
    }
  }

  /** A subsequence of the rest of `ys` is a subsequence of `ys`. */
  lemma {:induction false} SubsequenceSkip(xs: seq<string>, ys: seq<string>)
    requires |ys| > 0 && IsSubsequence(xs, ys[1..])
    ensures IsSubsequence(xs, ys)
    decreases |ys|, 0
  {
    if xs != [] && xs[0] == ys[0] {
      SubsequenceDrop(xs, ys[1..]);
    }
  }

  /** Dropping the head of a subsequence leaves a subsequence. */
  lemma {:induction false} SubsequenceDrop(xs: seq<string>, ys: seq<string>)
    requires xs != [] && IsSubsequence(xs, ys)
    ensures IsSubsequence(xs[1..], ys)
    decreases |ys|, 1
  {
    if xs[1..] != [] {
      if xs[0] == ys[0] {
        SubsequenceSkip(xs[1..], ys);
      } else {
        SubsequenceDrop(xs, ys[1..]);
        SubsequenceSkip(xs[1..], ys);
      }
    }
  }

  /** Appending an entry appends its name to the listing when it ends in `.png`. */
  lemma {:induction false} PngNamesAppend(entries: seq<Entry>, e: Entry)
    ensures PngNames(entries + [e]) == PngNames(entries) + PngNames([e])
    decreases |entries|
  {
    var s := entries + [e];
    if |entries| == 0 {
      assert s == [e];
    } else {
      var head := if EndsWithPng(entries[0].name) then [entries[0].name] else [];
      assert s[0] == entries[0];
      assert s[1..] == entries[1..] + [e];
      PngNamesAppend(entries[1..], e);
      calc {
        PngNames(s);
        head + PngNames(s[1..]);
        head + (PngNames(entries[1..]) + PngNames([e]));
        (head + PngNames(entries[1..])) + PngNames([e]);
        PngNames(entries) + PngNames([e]);
      }
    }
  }

  /** Saving an image leaves exactly one file of that name holding the image, and every other entry as it was. */
  lemma SavedWritesOneFile(d: Dir, name: string, image: QrImage, rendered: bool)
    requires Wellformed(d) && Saved(d, name, image, rendered).Success?
    ensures var d' := Saved(d, name, image, rendered).value;
      && Wellformed(d')
      && PathIsFile(d', name)
      && d'.entries[Find(d'.entries, name)].kind == QrFile(image)
      && (forall e :: e in d.entries && e.name != name ==> e in d'.entries)
      && (forall e :: e in d'.entries && e.name != name ==> e in d.entries)
  {
    var i := Find(d.entries, name);
    var d' := Saved(d, name, image, rendered).value;
    if i < 0 {
      assert d'.entries[|d.entries|].name == name;
      assert Find(d'.entries, name) == |d.entries| by {
        FindIsUnique(d'.entries, name, |d.entries|);
      }
    } else {
      FindIsUnique(d'.entries, name, i);
      forall e | e in d.entries && e.name != name
        ensures e in d'.entries
      {
        var j :| 0 <= j < |d.entries| && d.entries[j] == e;
        assert d'.entries[j] == e;
      }
    }
  }

  /** With distinct names, `Find` returns the one position that holds the name. */
  lemma FindIsUnique(entries: seq<Entry>, name: string, i: int)
    requires NamesDistinct(entries) && 0 <= i < |entries| && entries[i].name == name
    ensures Find(entries, name) == i
  {
  }

  /** With distinct names, every entry that holds the name is the one `Find` returns. */
  lemma FindIsOnly(entries: seq<Entry>, name: string)
    ensures NamesDistinct(entries) ==>
      forall j :: 0 <= j < |entries| && entries[j].name == name ==> Find(entries, name) == j
  {
    if NamesDistinct(entries) {
      forall j | 0 <= j < |entries| && entries[j].name == name
        ensures Find(entries, name) == j
      {
        FindIsUnique(entries, name, j);
      }
    }
  }

  /** A successful removal leaves one entry fewer, the name gone, and exactly the entries with another name. */
  lemma RemovedDeletesName(d: Dir, name: string, permitted: bool)
    requires Wellformed(d) && Removed(d, name, permitted).Success?
    ensures var d' := Removed(d, name, permitted).value;
      && Wellformed(d')
      && !PathExists(d', name)
      && |d'.entries| == |d.entries| - 1
      && (forall e :: e in d.entries && e.name != name <==> e in d'.entries)
  {
    WithoutKeepsNamesDistinct(d.entries, name);
    WithoutRemovesOne(d.entries, name);
  }

  /** Establishing the directory twice is the same as establishing it once. */
  lemma MkdirIdempotent(d: Dir, permitted: bool)
    requires Mkdir(d, permitted).Success?
    ensures Mkdir(Mkdir(d, permitted).value, permitted) == Mkdir(d, permitted)
  {
  }

  /** As written, the call can return normally while a file, not a directory, stands at the storage path. */
  lemma MkdirAsWrittenLeavesNoDirectory()
    ensures MkdirAsWritten(Dir(OccupiedByFile, []), true) == Success(Dir(OccupiedByFile, []))
    ensures forall readable :: RetrieveQrFileNames(MkdirAsWritten(Dir(OccupiedByFile, []), true).value, readable).Failure?
  {
  }
}

=== FILE: resource_links.dfy ===
/** The navigation links of `craft_resource_links` (`app/utils/common.py`). */
module ResourceLinks {

  /** One `{relation, target, method, content_type}` record of a response; `httpMethod` holds `method`. */
  datatype Link = Link(relation: string, target: string, httpMethod: string, contentType: string)

  /** The link to fetch the rendered image. */
  function ViewLink(downloadLink: string): Link {
    Link("view", downloadLink, "GET", "image/png")
  }

  /** The link to the API's delete endpoint of a stored image. */
  function DeleteLink(apiBase: string, qrFile: string): Link {
    Link("delete", apiBase + "/qr-codes/" + qrFile, "DELETE", "application/json")
  }

  /**
   * `craft_resource_links`: a view link when the verb is "create", then a delete link
   * when the verb is "create" or "delete"; no link for any other verb.
   */
  function CraftResourceLinks(verb: string, qrFile: string, apiBase: string, downloadLink: string): (links: seq<Link>)
    ensures |links| == (if verb == "create" then 2 else if verb == "delete" then 1 else 0)
    ensures verb == "create" ==> links[0] == ViewLink(downloadLink)
    ensures verb == "create" || verb == "delete" ==> links[|links| - 1] == DeleteLink(apiBase, qrFile)
  {
    var view := if verb == "create" then [ViewLink(downloadLink)] else [];
    var delete := if verb == "create" || verb == "delete" then [DeleteLink(apiBase, qrFile)] else [];
    view + delete
  }

  /** Every link is either the view link or the delete link, and a view link only ever comes with a delete link after it. */
  lemma LinksAreViewThenDelete(verb: string, qrFile: string, apiBase: string, downloadLink: string)
    ensures var links := CraftResourceLinks(verb, qrFile, apiBase, downloadLink);
      && (forall l :: l in links ==> l == ViewLink(downloadLink) || l == DeleteLink(apiBase, qrFile))
      && (ViewLink(downloadLink) in links <==> verb == "create")
      && (DeleteLink(apiBase, qrFile) in links <==> verb == "create" || verb == "delete")
  {
  }
}

=== FILE: token_service.dfy ===
/**
 * Credential check and token issuance: `verify_credentials` and `issue_token` of
 * `app/utils/common.py` and the `/token` endpoint of `app/routers/oauth.py`.
 *
 * Time is an integer count of seconds.  Signing the claims (RFC 7519) is library code
 * outside this model: a token is the claims together with the key and algorithm they
 * were signed with, so equal tokens have equal claims.
 */
module TokenService {
  import opened Wrappers
  import Config

  /** The `{"username": user_id}` record of a verified user. */
  datatype Identity = Identity(username: string)

  /** `verify_credentials`: the identity exactly when both values equal the configured pair. */
  function VerifyCredentials(userId: string, password: string): (r: Option<Identity>)
    ensures r.Some? <==> userId == Config.AdminUser && password == Config.AdminPassword
    ensures r.Some? ==> r.value == Identity(userId)
  {
    if userId == Config.AdminUser && password == Config.AdminPassword then Some(Identity(userId)) else None
  }

  /** A claim value: text, or a NumericDate (section 2 of RFC 7519) in seconds. */
  datatype ClaimValue = Text(text: string) | NumericDate(seconds: int)

  type Claims = map<string, ClaimValue>

  /** A signed JSON Web Token. */
  datatype Jwt = Jwt(claims: Claims, key: string, algorithm: string)

  /** `timedelta(minutes=15)`, the lifetime used when none, or a zero one, is given. */
  const DefaultLifetime := 15 * 60

  /** `expires_delta or timedelta(minutes=15)`: a missing or zero delta is falsy. */
  function EffectiveLifetime(expiresDelta: Option<int>): (seconds: int)
    ensures expiresDelta.Some? && expiresDelta.value != 0 ==> seconds == expiresDelta.value
    ensures expiresDelta.None? || expiresDelta.value == 0 ==> seconds == DefaultLifetime
  {
    match expiresDelta
    case Some(delta) => if delta != 0 then delta else DefaultLifetime
    case None => DefaultLifetime
  }

  /**
   * `issue_token`: a copy of `data` with `exp` set to `now` plus the effective
   * lifetime (the `exp` claim of section 4.1.4 of RFC 7519), signed with the
   * configured key and algorithm.
   */
  function IssueToken(data: Claims, now: int, expiresDelta: Option<int>): (token: Jwt)
    ensures token.claims.Keys == data.Keys + {"exp"}
    ensures forall k :: k in data && k != "exp" ==> token.claims[k] == data[k]
    ensures token.claims["exp"] == NumericDate(now + EffectiveLifetime(expiresDelta))
    ensures token.key == Config.SecretKey && token.algorithm == Config.Algorithm
  {
    var tokenData := data;
    Jwt(tokenData["exp" := NumericDate(now + EffectiveLifetime(expiresDelta))], Config.SecretKey, Config.Algorithm)
  }

  /** The `{access_token, token_type}` body of a successful `/token` call. */
  datatype AuthToken = AuthToken(accessToken: Jwt, tokenType: string)

  /** The 401 of a failed login, with the `Bearer` challenge of section 3 of RFC 6750. */
  const LoginRejected := HttpException(401, "Incorrect user login details", [("WWW-Authenticate", "Bearer")])

  /**
   * `get_access_token`: 401 for wrong credentials; otherwise a bearer token whose
   * subject is the user and which expires TOKEN_LIFETIME_MINUTES after `now`.
   */
  function GetAccessToken(username: string, password: string, now: int): (r: Result<AuthToken, HttpException>)
    ensures r.Failure? <==> VerifyCredentials(username, password).None?
    ensures r.Failure? ==> r.error == LoginRejected
    ensures r.Success? ==> r.value.tokenType == "bearer"
    ensures r.Success? ==> r.value.accessToken.claims
                           == map["sub" := Text(username), "exp" := NumericDate(now + Config.TokenLifetimeMinutes * 60)]
  {
    match VerifyCredentials(username, password)
    case None => Failure(LoginRejected)
    case Some(verifiedUser) =>
      var token := IssueToken(map["sub" := Text(verifiedUser.username)], now, Some(Config.TokenLifetimeMinutes * 60));
      Success(AuthToken(token, "bearer"))
  }

  /** A token is only ever granted to the configured user, for the configured lifetime. */
  lemma TokensOnlyForAdmin(username: string, password: string, now: int)
    requires GetAccessToken(username, password, now).Success?
    ensures var claims := GetAccessToken(username, password, now).value.accessToken.claims;
      && claims["sub"] == Text(Config.AdminUser)
      && claims["exp"].seconds - now == 1800
  {
  }
}

=== FILE: utf8.dfy ===
/**
 * UTF-8, as Python's `str.encode('utf-8')` and strict `bytes.decode('utf-8')` compute
 * it.  A Dafny `char` is a Unicode scalar value, so every string has an encoding; the
 * decoder accepts exactly the well-formed byte sequences of Table 3-7 of the Unicode
 * Standard (no overlong forms, no surrogates, nothing above U+10FFFF).
 */
module Utf8 {
  import opened Wrappers

  /** A continuation byte, 10xxxxxx. */
  predicate IsCont(x: Byte) {
    0x80 <= x <= 0xBF
  }

  /** The one to four bytes that encode `c`. */
  function EncodeChar(c: char): (b: seq<Byte>)
    ensures 1 <= |b| <= 4
  {
    var n := c as int;
    if n < 0x80 then [n]
    else if n < 0x800 then [0xC0 + n / 64, 0x80 + n % 64]
    else if n < 0x10000 then [0xE0 + n / 4096, 0x80 + (n / 64) % 64, 0x80 + n % 64]
    else [0xF0 + n / 262144, 0x80 + (n / 4096) % 64, 0x80 + (n / 64) % 64, 0x80 + n % 64]
  }

  /** `str.encode('utf-8')`: the encodings of the characters, in order. */
  function Encode(s: string): (b: seq<Byte>)
    ensures |b| >= |s|
    decreases |s|
  {
    if s == [] then [] else EncodeChar(s[0]) + Encode(s[1..])
  }

  /** The second byte a three-byte lead byte admits (no overlong form, no surrogate). */
  predicate SecondOf3(b0: Byte, b1: Byte) {
    if b0 == 0xE0 then 0xA0 <= b1 <= 0xBF
    else if b0 == 0xED then 0x80 <= b1 <= 0x9F
    else IsCont(b1)
  }

  /** The second byte a four-byte lead byte admits (no overlong form, nothing above U+10FFFF). */
  predicate SecondOf4(b0: Byte, b1: Byte) {
    if b0 == 0xF0 then 0x90 <= b1 <= 0xBF
    else if b0 == 0xF4 then 0x80 <= b1 <= 0x8F
    else IsCont(b1)
  }

  /**
   * The character that `b` starts with and the number of bytes it takes, or None when
   * `b` does not start with a well-formed sequence.
   */
  function DecodeFirst(b: seq<Byte>): (r: Option<(char, nat)>)
    requires |b| > 0
    ensures r.Some? ==> 1 <= r.value.1 <= |b| && r.value.1 <= 4
  {
    var b0 := b[0] as int;
    if b0 < 0x80 then Some((b0 as char, 1))
    else if 0xC2 <= b0 <= 0xDF then
      if |b| >= 2 && IsCont(b[1]) then Some((Value2(b0, b[1]) as char, 2))
      else None
    else if 0xE0 <= b0 <= 0xEF then
      if |b| >= 3 && SecondOf3(b[0], b[1]) && IsCont(b[2]) then Some((Value3(b0, b[1], b[2]) as char, 3))
      else None
    else if 0xF0 <= b0 <= 0xF4 then
      if |b| >= 4 && SecondOf4(b[0], b[1]) && IsCont(b[2]) && IsCont(b[3]) then
        Some((Value4(b0, b[1], b[2], b[3]) as char, 4))
      else None
    else None
  }

  /** The scalar value that a well-formed two-, three- or four-byte sequence carries. */
  function Value2(b0: int, b1: int): (n: int)
    requires 0xC2 <= b0 <= 0xDF && 0x80 <= b1 <= 0xBF
    ensures 0x80 <= n < 0x800
  {
    (b0 - 0xC0) * 64 + (b1 - 0x80)
  }

  function Value3(b0: int, b1: Byte, b2: Byte): (n: int)
    requires 0xE0 <= b0 <= 0xEF && SecondOf3(b0, b1) && IsCont(b2)
    ensures 0x800 <= n < 0xD800 || 0xE000 <= n < 0x10000
  {
    (b0 - 0xE0) * 4096 + (b1 - 0x80) * 64 + (b2 - 0x80)
  }

  function Value4(b0: int, b1: Byte, b2: Byte, b3: Byte): (n: int)
    requires 0xF0 <= b0 <= 0xF4 && SecondOf4(b0, b1) && IsCont(b2) && IsCont(b3)
    ensures 0x10000 <= n < 0x110000
  {
    (b0 - 0xF0) * 262144 + (b1 - 0x80) * 4096 + (b2 - 0x80) * 64 + (b3 - 0x80)
  }

  /** Strict `bytes.decode('utf-8')`: None as soon as an ill-formed sequence is met. */
  function Decode(b: seq<Byte>): (r: Option<string>)
    ensures r.Some? ==> |r.value| <= |b|
    decreases |b|
  {
    if b == [] then Some("")
    else match DecodeFirst(b)
      case None => None
      case Some((c, k)) =>
        match Decode(b[k..])
        case None => None
        case Some(s) => Some([c] + s)
  }

  // ---------------------------------------------------------------------------
  // Arithmetic of the bit fields

  lemma Split64(n: int)
    requires 0 <= n
    ensures n == (n / 64) * 64 + n % 64 && 0 <= n % 64 < 64
  {
  }

  lemma Fields64(q: int, r: int)
    requires 0 <= q && 0 <= r < 64
    ensures (q * 64 + r) / 64 == q && (q * 64 + r) % 64 == r
  {
  }

  /** Encoding a two-byte character and decoding it give each other back. */
  lemma TwoBytes(n: int)
    requires 0x80 <= n < 0x800
    ensures 0xC2 <= 0xC0 + n / 64 <= 0xDF
    ensures ((n / 64) * 64 + n % 64) == n
  {
    Split64(n);
  }

  lemma ThreeBytes(n: int)
    requires 0x800 <= n < 0x10000
    ensures n / 64 == (n / 4096) * 64 + (n / 64) % 64
    ensures n == (n / 4096) * 4096 + ((n / 64) % 64) * 64 + n % 64
    ensures n / 4096 < 16
    ensures n / 4096 == 0 ==> 32 <= n / 64 < 64
    ensures n / 4096 == 0xD && n < 0xD800 ==> (n / 64) % 64 < 32
  {
    Split64(n);
    Split64(n / 64);
    assert n / 64 / 64 == n / 4096;
  }

  lemma FourBytes(n: int)
    requires 0x10000 <= n < 0x110000
    ensures n / 4096 == (n / 262144) * 64 + (n / 4096) % 64
    ensures n / 64 == (n / 4096) * 64 + (n / 64) % 64
    ensures n == (n / 262144) * 262144 + ((n / 4096) % 64) * 4096 + ((n / 64) % 64) * 64 + n % 64
    ensures n / 262144 <= 4
    ensures n / 262144 == 0 ==> 16 <= n / 4096 < 64
    ensures n / 262144 == 4 ==> (n / 4096) % 64 < 16
  {
    Split64(n);
    Split64(n / 64);
    Split64(n / 4096);
    assert n / 64 / 64 == n / 4096;
    assert n / 4096 / 64 == n / 262144;
  }

  // ---------------------------------------------------------------------------
  // Round trips

  /** The decoder reads back exactly the character the encoder wrote, whatever follows it. */
  lemma DecodeFirstEncodeChar(c: char, rest: seq<Byte>)
    ensures DecodeFirst(EncodeChar(c) + rest) == Some((c, |EncodeChar(c)|))
  {
    var n := c as int;
    if n < 0x80 {
    } else if n < 0x800 {
      DecodeFirstTwo(c, rest);
    } else if n < 0x10000 {
      DecodeFirstThree(c, rest);
    } else {
      DecodeFirstFour(c, rest);
    }
  }

  lemma DecodeFirstTwo(c: char, rest: seq<Byte>)
    requires 0x80 <= c as int < 0x800
    ensures DecodeFirst(EncodeChar(c) + rest) == Some((c, 2))
  {
    var n := c as int;
    var b := EncodeChar(c) + rest;
    TwoBytes(n);
    assert b[0] == 0xC0 + n / 64 && b[1] == 0x80 + n % 64;
    assert Value2(b[0], b[1]) == n;
  }

  lemma DecodeFirstThree(c: char, rest: seq<Byte>)
    requires 0x800 <= c as int < 0x10000
    ensures DecodeFirst(EncodeChar(c) + rest) == Some((c, 3))
  {
    var n := c as int;
    var b := EncodeChar(c) + rest;
    ThreeBytes(n);
    assert b[0] == 0xE0 + n / 4096 && b[1] == 0x80 + (n / 64) % 64 && b[2] == 0x80 + n % 64;
    assert Value3(b[0], b[1], b[2]) == n;
  }

  lemma DecodeFirstFour(c: char, rest: seq<Byte>)
    requires 0x10000 <= c as int
    ensures DecodeFirst(EncodeChar(c) + rest) == Some((c, 4))
  {
    var n := c as int;
    var b := EncodeChar(c) + rest;
    FourBytes(n);
    assert b[0] == 0xF0 + n / 262144 && b[1] == 0x80 + (n / 4096) % 64;
    assert b[2] == 0x80 + (n / 64) % 64 && b[3] == 0x80 + n % 64;
    assert Value4(b[0], b[1], b[2], b[3]) == n;
  }

  lemma EncodeValue2(b0: int, b1: Byte)
    requires 0xC2 <= b0 <= 0xDF && IsCont(b1)
    ensures EncodeChar(Value2(b0, b1) as char) == [b0, b1]
  {
    Fields64(b0 - 0xC0, b1 - 0x80);
  }

  lemma EncodeValue3(b0: int, b1: Byte, b2: Byte)
    requires 0xE0 <= b0 <= 0xEF && SecondOf3(b0, b1) && IsCont(b2)
    ensures EncodeChar(Value3(b0, b1, b2) as char) == [b0, b1, b2]
  {
    var n := Value3(b0, b1, b2);
    var m := (b0 - 0xE0) * 64 + (b1 - 0x80);
    Fields64(m, b2 - 0x80);
    Fields64(b0 - 0xE0, b1 - 0x80);
    assert n == m * 64 + (b2 - 0x80);
    assert n / 64 == m;
    assert n / 4096 == m / 64;
  }

  lemma EncodeValue4(b0: int, b1: Byte, b2: Byte, b3: Byte)
    requires 0xF0 <= b0 <= 0xF4 && SecondOf4(b0, b1) && IsCont(b2) && IsCont(b3)
    ensures EncodeChar(Value4(b0, b1, b2, b3) as char) == [b0, b1, b2, b3]
  {
    var n := Value4(b0, b1, b2, b3);
    var l := (b0 - 0xF0) * 64 + (b1 - 0x80);
    var m := l * 64 + (b2 - 0x80);
    Fields64(m, b3 - 0x80);
    Fields64(l, b2 - 0x80);
    Fields64(b0 - 0xF0, b1 - 0x80);
    assert n == m * 64 + (b3 - 0x80);
    assert n / 64 == m;
    assert n / 4096 == m / 64;
    assert n / 262144 == m / 64 / 64;
  }

  /** Whatever the decoder accepts is the encoder's output for the character it returns. */
  lemma EncodeCharDecodeFirst(b: seq<Byte>)
    requires |b| > 0 && DecodeFirst(b).Some?
    ensures EncodeChar(DecodeFirst(b).value.0) == b[..DecodeFirst(b).value.1]
  {
    var b0 := b[0] as int;
    if b0 < 0x80 {
    } else if b0 <= 0xDF {
      EncodeValue2(b0, b[1]);
      assert b[..2] == [b[0], b[1]];
    } else if b0 <= 0xEF {
      EncodeValue3(b0, b[1], b[2]);
      assert b[..3] == [b[0], b[1], b[2]];
    } else {
      EncodeValue4(b0, b[1], b[2], b[3]);
      assert b[..4] == [b[0], b[1], b[2], b[3]];
    }
  }

  /** The encoding of a string is the encoding of its first character ahead of the rest. */
  lemma EncodeCons(c: char, s: string)
    ensures Encode([c] + s) == EncodeChar(c) + Encode(s)
  {
    assert ([c] + s)[0] == c && ([c] + s)[1..] == s;
  }

  /** Decoding reads one character off the front, then decodes the rest. */
  lemma DecodeCons(c: char, rest: seq<Byte>, t: string)
    requires Decode(rest) == Some(t)
    ensures Decode(EncodeChar(c) + rest) == Some([c] + t)
  {
    var b := EncodeChar(c) + rest;
    DecodeFirstEncodeChar(c, rest);
    assert b[|EncodeChar(c)|..] == rest;
  }

  /** Encoding undoes one decoding step. */
  lemma DecodeStep(b: seq<Byte>)
    requires b != [] && Decode(b).Some?
    ensures DecodeFirst(b).Some?
    ensures Decode(b[DecodeFirst(b).value.1..]).Some?
    ensures Decode(b).value == [DecodeFirst(b).value.0] + Decode(b[DecodeFirst(b).value.1..]).value
  {
  }

  /** A character's encoding ahead of the encoding of the rest gives back the bytes they were read from. */
  lemma EncodeSplit(b: seq<Byte>, c: char, k: nat, t: string)
    requires k <= |b| && EncodeChar(c) == b[..k] && Encode(t) == b[k..]
    ensures Encode([c] + t) == b
  {
    EncodeCons(c, t);
    assert b[..k] + b[k..] == b;
  }

  /** Decoding the encoding of a string gives the string back. */
  lemma {:induction false} DecodeEncode(s: string)
    ensures Decode(Encode(s)) == Some(s)
    decreases |s|
  {
    if s != [] {
      DecodeEncode(s[1..]);
      EncodeCons(s[0], s[1..]);
      assert [s[0]] + s[1..] == s;
      DecodeCons(s[0], Encode(s[1..]), s[1..]);
    }
  }

  /** Whatever the decoder accepts, it accepts only as the encoding of its result. */
  lemma {:induction false} EncodeDecode(b: seq<Byte>)
    requires Decode(b).Some?
    ensures Encode(Decode(b).value) == b
    decreases |b|
  {
    if b != [] {
      DecodeStep(b);
      var c, k := DecodeFirst(b).value.0, DecodeFirst(b).value.1;
      var t := Decode(b[k..]).value;
      EncodeCharDecodeFirst(b);
      EncodeDecode(b[k..]);
      EncodeSplit(b, c, k, t);
    }
  }

  /** The decoder and the encoder are inverse: `b` decodes to `s` exactly when `s` encodes to `b`. */
  lemma DecodeIsInverse(b: seq<Byte>, s: string)
    ensures Decode(b) == Some(s) <==> Encode(s) == b
  {
    if Decode(b) == Some(s) {
      EncodeDecode(b);
    }
    if Encode(s) == b {
      DecodeEncode(s);
    }
  }

  /** Distinct strings have distinct encodings. */
  lemma EncodeInjective(s: string, t: string)
    requires Encode(s) == Encode(t)
    ensures s == t
  {
    DecodeEncode(s);
    DecodeEncode(t);
  }
}

=== FILE: wrappers.dfy ===
/** Failure-carrying wrappers and the exceptions the service's code can raise. */
module Wrappers {

  datatype Option<+T> = None | Some(value: T)

  datatype Result<+R, +E> = Success(value: R) | Failure(error: E)

  datatype Outcome<+E> = Pass | Fail(error: E)

  /** An octet, as held in a Python `bytes` object. */
  type Byte = b: int | 0 <= b < 256

  /** The Python exceptions that the modelled code raises or lets propagate. */
  datatype Error =
    | InvalidUrl        // ValueError raised by url_to_safe_string
    | NonAscii          // ValueError raised by urlsafe_b64decode for a non-ASCII str
    | Base64Error       // binascii.Error: a dangling character or missing padding
    | Utf8Error         // UnicodeDecodeError from bytes.decode('utf-8')
    | FileNotFound      // FileNotFoundError
    | NotADirectory     // NotADirectoryError
    | IsADirectory      // IsADirectoryError
    | PermissionDenied  // PermissionError
    | FileExists        // FileExistsError
    | RenderFailed      // any exception raised by the QR rendering library

  /** FastAPI's `HTTPException`: a status code, a detail message and extra response headers. */
  datatype HttpException = HttpException(status: int, detail: string, headers: seq<(string, string)>)
}
